=== FILE: README.md ===
# Mobile-booth revenue dashboard — a Dafny model

This project models the two halves of a revenue dashboard for mobile-money booths:

- **the browser client** (`DashboardApp` in `dashboard.js`), as a pure state machine. It tracks:
  - who is logged in;
  - the fetched data (`allData`);
  - the filter record;
  - the notification area.

  Every event is one transition: a settled batch of the nine data fetches, a login reply, a logout, a socket event, or a filter button.
- **the Flask backend** (`app.py`), as pure functions over the `user`, `transaction` and `alert` tables:
  - the `login_required` / `role_required` gates;
  - `/login` and `/api/user`;
  - the aggregate endpoints (grouped sums and counts, top-N rankings, the summary, per-service limits);
  - the two alert endpoints.

A last module puts both sides together. It shows three things:
- the page's role-based visibility agrees with the backend's role gate;
- the page's empty-field guard keeps the backend's 400 answer out of reach;
- after a login, the page and `/api/user` agree on who is logged in.

Modules, in dependency order:

| file | module | what it holds |
|---|---|---|
| common.dfy | Common | `Option`, the `{username, role}` user record, `Min` |
| keys.dfy | Keys | last path segment, camelCase rewrite of `_x`, first-`/api/` removal |
| notifications.dfy | Notifications | the notification board: post, timer expiry, close button, count |
| batch.dfy | Batch | the result loop of `loadAllData` over any settled batch |
| filters.dfy | Filters | the `currentFilters` record |
| endpoints.dfy | Endpoints | the nine endpoints, their order, URLs and storage keys |
| dashboard.dfy | Dashboard | the client state machine |
| ranking.dfy | Ranking | `ORDER BY … DESC LIMIT n` |
| metrics.dfy | Metrics | the aggregate endpoints |
| server_auth.dfy | ServerAuth | gates, login, current user |
| alerts.dfy | Alerts | listing and marking alerts |
| consistency.dfy | Consistency | client and backend side by side |

Conventions:
- Fetch results, the session cookie, the window width and the login reply enter the model as parameters.
- Payloads stay abstract: `allData` is a `map<string, P>`.
- Money amounts are exact reals.

Behaviours of the code worth knowing, all modelled as written:
- **Logout keeps the data.** A logout forgets the user but keeps the data already fetched (`Logout` keeps `data`).
- **Late results are still stored.** A reload checks for a user only when it starts (`dashboard.js:251`). Results arriving after a logout are committed all the same (`LateCommitAfterLogout`).
- **Filters never reach a request.** Applying or resetting filters changes `currentFilters` and reloads. No request reads the filters, so the reload fetches the same data as any other reload (`FiltersDoNotReachData`).
- **No coalescing of `data_update`.** Every `data_update` event starts its own reload.
- **Any 2xx login answer counts as a success.** The page tests only `response.ok` and takes `data.user` as it is (`dashboard.js:71-75`). A 2xx body without `user` would post `Login successful!` yet leave nobody logged in (`Login`); the backend never sends one (`BackendRepliesCarryUser`).
- **`role_required` is never applied.** It is defined but used by no route. It is still modelled (`RoleRequired`) and related to the page's visibility rules.

## Model

| member | source | states |
|---|---|---|
| Keys.CamelCase | dashboard.js:300 | the global `/_([a-z])/g` replacement never lengthens the string and keeps a non-empty string non-empty |
| Keys.CamelCaseNoPair | dashboard.js:300 | after the rewrite no `_` is followed by a lower-case letter, so the rewrite cannot create a new match |
| Keys.CamelCaseFixed | dashboard.js:300 | a string with no `_x` pair is left unchanged |
| Keys.CamelCaseIdempotent | dashboard.js:300 | applying the rewrite twice is the same as applying it once |
| Keys.CamelCaseAppend | dashboard.js:300 | no match straddles a boundary that does not follow an `_`: the rewrite of `a + b` is the rewrite of `a` followed by that of `b` |
| Keys.CamelCaseTwoWords | dashboard.js:300 | `w1_cw2` becomes `w1Cw2` when neither word holds an `_` |
| Keys.CamelCaseThreeWords | dashboard.js:300 | `w1_bw2_cw3` becomes `w1Bw2Cw3` when no word holds an `_` |
| Keys.LastSegment | dashboard.js:297 | `split('/').pop()` returns a string without `/` |
| Keys.LastSegmentIsSuffix | dashboard.js:297 | the last segment is a suffix of the path, preceded by a `/` unless it is the whole path |
| Keys.LastSegmentAfterSlash | dashboard.js:297 | the segment after a final `/` is exactly the text after it |
| Keys.StripApi | dashboard.js:306 | `replace` with a string pattern removes at most one `/api/`: a path starting with it loses exactly those five leading characters, and any other string keeps its length or loses just five |
| Keys.StripApiAbsent | dashboard.js:306 | a string without `/api/` is shown unchanged |
| Notifications.Empty | dashboard.js:27 | the page starts with no notification and a count of 0 |
| Notifications.Post | dashboard.js:167-200 | posting adds exactly one entry under a fresh id and keeps every other entry. The count goes up by one. A timer is armed exactly when the duration is positive |
| Notifications.PostAll | dashboard.js:167-200 | posting n entries raises the count by n and keeps every earlier entry |
| Notifications.PostAllEntries | dashboard.js:167-200 | the i-th of a run of posted entries is on the board under the i-th fresh id |
| Notifications.Expire | dashboard.js:190-197 | a timer removes its entry only if the entry is still shown; a timer that is not armed does nothing |
| Notifications.Dismiss | dashboard.js:182-206 | the close button removes that entry and republishes the count of entries shown |
| Notifications.ExpireIdempotent | dashboard.js:190-197 | a timer fires at most once: a second expiry changes nothing |
| Notifications.DismissIdempotent | dashboard.js:182 | closing an entry twice is the same as closing it once |
| Notifications.DismissThenExpire | dashboard.js:182-197 | closing an entry and then letting its timer fire lowers the count once, not twice |
| Notifications.UntimedEntryPersists | dashboard.js:190-197 | an entry with a duration of 0 or less survives every timer |
| Notifications.TimedEntryExpires | dashboard.js:190-197 | an entry with a positive duration is gone once its timer fires, and the count is back where it was |
| Batch.StoreSuccess | dashboard.js:295-302 | a success writes the payload under both the segment key and its camelCase key, and leaves every other key unchanged |
| Batch.FailureNote | dashboard.js:304-307 | a failure posts a warning with the default 5000 ms that names the endpoint without its `/api/` prefix |
| Batch.CommitResults | dashboard.js:276-282 | handling the outcomes in index order never drops a key. It posts exactly one warning per rejected endpoint, in batch order |
| Batch.UntouchedKept | dashboard.js:276-282 | a key that no fulfilled outcome writes keeps its old value, or stays absent |
| Batch.RejectedCount | dashboard.js:276-282 | the number of warnings equals the number of rejected outcomes |
| Batch.RejectedEndpointMember | dashboard.js:276-282 | every warning names an endpoint of the batch whose fetch was rejected |
| Batch.FulfilledStored | dashboard.js:276-302 | when endpoints write disjoint keys, each key of a fulfilled endpoint holds that endpoint's payload |
| Batch.RejectedKept | dashboard.js:276-307 | when endpoints write disjoint keys, the keys of a rejected endpoint keep their old values |
| Batch.CommitDataIdempotent | dashboard.js:276-282 | committing the same settled batch twice leaves the data as committing it once, whether or not two endpoints share a key |
| Batch.WrittenIndependent | dashboard.js:276-282 | a key some fulfilled outcome writes ends up present with the same value whatever the data held before: the last write wins |
| Filters.Defaults | dashboard.js:16-22 | the initial filters are `all` three times with no dates |
| Filters.Apply | dashboard.js:914-922 | applying sets booth, service and date range, and keeps the dates |
| Filters.Reset | dashboard.js:924-940 | resetting restores `all` three times and clears both dates |
| Filters.ApplyLastWins | dashboard.js:914-922 | of two applications, the second one decides |
| Filters.ResetThenApply | dashboard.js:914-940 | after a reset, applying a booth gives that booth and nothing else |
| Filters.ResetForgets | dashboard.js:924-940 | a reset does not depend on the earlier filters, and resetting twice is resetting once |
| Filters.ApplyDefaultsFixed | dashboard.js:914-922 | applying `all` to the defaults changes nothing |
| Endpoints.Rank | dashboard.js:254-264 | every endpoint sits at exactly one position of the fetch list |
| Endpoints.AtRankInjective | dashboard.js:254-264 | no endpoint is fetched twice in one batch |
| Endpoints.Segment | dashboard.js:254-264 | every endpoint's last segment is non-empty and has no `/` |
| Endpoints.Path | dashboard.js:254-264 | every URL is `/api/` followed by the endpoint's segment |
| Endpoints.SegmentCamel | dashboard.js:295-302 | the camelCase form of each segment is the key the constructor pre-populates |
| Endpoints.PathKeys | dashboard.js:295-302 | a success writes exactly the segment key and the constructor's key |
| Endpoints.KeyOwnerInverts | dashboard.js:254-264 | each storage key decodes back to its own endpoint |
| Endpoints.EndpointsDisjoint | dashboard.js:254-302 | two different endpoints never write the same key |
| Endpoints.FailureName | dashboard.js:306 | the failure warning reads `Failed to load <segment>` |
| Dashboard.InitialDataShape | dashboard.js:4-14 | each endpoint's camelCase key starts present, holding `[]` for service limits, trends and alerts and `{}` otherwise |
| Dashboard.Init | dashboard.js:3-30 | the page starts logged out, with the default filters and an empty notification area |
| Dashboard.Settle | dashboard.js:266-273 | the i-th settled outcome belongs to the i-th endpoint of the list |
| Dashboard.SettleDisjoint | dashboard.js:254-302 | the endpoints of one batch write pairwise disjoint keys |
| Dashboard.Notify | dashboard.js:167-200 | a note leaves the user, the data and the filters alone, appears under the next id, and every earlier note stays as it was |
| Dashboard.Commit | dashboard.js:276-282 | the commit keeps the user and the filters, never drops a key, keeps every note already shown, and adds one warning per rejected endpoint |
| Dashboard.LoadAllData | dashboard.js:250-282 | with nobody logged in a reload does nothing. Otherwise it keeps the earlier notes and adds one warning per rejected fetch |
| Dashboard.CommitFulfilled | dashboard.js:276-302 | after a reload, a fulfilled endpoint's payload sits under both its keys |
| Dashboard.CommitRejected | dashboard.js:276-307 | after a reload, a rejected endpoint's keys are exactly as before |
| Dashboard.CommitWarnings | dashboard.js:276-307 | a reload posts as many warnings as fetches were rejected. Each one reads `Failed to load <segment>` for some rejected endpoint, with kind `warning` and 5000 ms |
| Dashboard.HandleLoginSuccess | dashboard.js:96-100 | records the user, keeps every earlier note, and the reload it starts posts one warning per rejected fetch |
| Dashboard.Login | dashboard.js:60-82 | a 2xx answer sets the user to the body's `user` field and posts the success note `Login successful!` for the default duration; a body without a user logs nobody in and loads nothing. A refused answer posts the error note `Invalid credentials!`, an unreachable server the error note `Login failed!`, and neither changes the user or the data. Earlier notes always stay |
| Dashboard.LoginReloads | dashboard.js:71-100 | an accepted login with a user reloads once: the data is exactly what a reload as that user stores, and the board gains the success note plus one warning per rejected fetch |
| Dashboard.SubmitLogin | dashboard.js:691-700 | with an empty username or password, nothing is sent and a warning is posted; otherwise it is exactly a login. Earlier notes stay |
| Dashboard.CheckAuthentication | dashboard.js:41-58 | an existing session sets the user and starts a reload that posts one warning per rejected fetch. Without one, nothing changes |
| Dashboard.CheckAuthenticationReloads | dashboard.js:41-58 | with a session, checking authentication is exactly a reload as that user, so every fulfilled payload ends up under its endpoint's key |
| Dashboard.ReloadStores | dashboard.js:250-282 | a reload by a logged-in user stores every fulfilled payload under both of its endpoint's keys |
| Dashboard.Logout | dashboard.js:84-94 | a logout that reaches the server forgets the user and posts `Logged out successfully!` (info, default duration) under the next id, keeping the data and every earlier note; a failed one changes nothing |
| Dashboard.ReloadSeesOnlyData | dashboard.js:250-282 | what a reload stores depends only on the data and the user, not on the board or the filters |
| Dashboard.LoadAfterLogout | dashboard.js:84-94 | after a logout a reload does nothing |
| Dashboard.LateCommitAfterLogout | dashboard.js:250-282 | a reload started before a logout still stores its results afterwards, as if the user had stayed |
| Dashboard.PushNote | dashboard.js:142-164 | connecting posts `Real-time updates connected` (info, 3 s); disconnecting posts `Real-time updates disconnected` (warning, 5 s); `data_update` posts `Data updated in real-time` (info, 2 s); a new alert posts its own message for 10 s with its severity, or `info` when it has none |
| Dashboard.PushNoteExpires | dashboard.js:142-164 | every note a connect, disconnect or new-alert event posts has its timer armed, and when the timer fires the note leaves the board and the count returns to what it was |
| Dashboard.OnPush | dashboard.js:139-164 | every socket event posts its note first and keeps every earlier note. Only `data_update` touches the data |
| Dashboard.DataUpdateReloadsOnce | dashboard.js:161-164 | a `data_update` gives the data of exactly one reload, plus its own note |
| Dashboard.ApplyFilters | dashboard.js:914-922 | applying filters stores them, keeps every earlier note and posts `Filters applied successfully` |
| Dashboard.ResetFilters | dashboard.js:924-940 | resetting restores the defaults, keeps every earlier note and posts `Filters reset` |
| Dashboard.FiltersDoNotReachData | dashboard.js:914-940 | the data after applying or resetting filters is what a plain reload gives, and the board holds exactly one more note than after that reload |
| Dashboard.RoleVisibility | dashboard.js:122-136 | whatever shows admin elements also shows manager elements |
| Dashboard.FontSize | dashboard.js:310-317 | the chart font size by width band: 10 px below 480, 11 up to 768, 12 up to 1024, 13 up to 1440, 14 from 1440 |
| Dashboard.FontSizeMonotone | dashboard.js:310-317 | a wider window never gets a smaller font |
| Ranking.Insert | app.py:243 | inserting into a descending list keeps it descending and adds exactly that row |
| Ranking.Sort | app.py:243 | sorting gives a descending permutation of the rows |
| Ranking.TopN | app.py:243 | `LIMIT n` keeps `min(n, rows)` rows, in descending order, all drawn from the input |
| Ranking.TopNKeepsBest | app.py:243 | no row left out scores more than a row kept |
| Ranking.TopNAll | app.py:243 | when n covers every row, the result is a permutation of the input |
| Ranking.SubUniqueNames | app.py:240-243 | rows drawn from a table with unique names have unique names |
| Ranking.TopNOfTable | app.py:240-243 | the top n of a grouped table are rows of it, with unique names; a row left out never scores more than one kept |
| Metrics.Distinct | app.py:233 | the groups of `GROUP BY` are distinct and cover exactly the values in the column |
| Metrics.CountForPositive | app.py:242-243 | a group's count is positive exactly when the group occurs |
| Metrics.GroupSums | app.py:230-233 | one row per distinct key, each holding its key's revenue sum; every key in the table has a row; names are unique |
| Metrics.GroupCounts | app.py:240-243 | one row per distinct key, each holding its key's transaction count; every key has a row; names are unique |
| Metrics.RevenueByBooth | app.py:220-235 | every booth appears once with its summed revenue |
| Metrics.TopServices | app.py:237-245 | at most five services, by count, most first |
| Metrics.RevenueByService | app.py:247-255 | at most ten services, by revenue, highest first |
| Metrics.TopBooths | app.py:257-265 | at most five booths, by revenue, highest first |
| Metrics.TopServicesRows | app.py:237-245 | each listed service has its true positive count, names are unique, and a service left out has no more transactions than one listed |
| Metrics.TopRevenueRows | app.py:247-265 | each listed row holds its key's true revenue sum, and names are unique |
| Metrics.TopRevenueBest | app.py:247-265 | a key left out of a revenue ranking earns no more than any key listed |
| Metrics.DistinctCount | app.py:272-273 | the number of groups of a GROUP BY equals the number of distinct key values in the table, which is what `COUNT(DISTINCT …)` counts |
| Metrics.SummaryOf | app.py:267-280 | the transaction count is the number of rows; `unique_services` and `unique_booths` are the numbers of distinct services and booths in the table (`COUNT(DISTINCT …)`), each at most the row count and positive when there is a transaction |
| Metrics.TotalByGroups | app.py:230-233 | the group sums of a `GROUP BY` add up to the table total |
| Metrics.GroupSumsTotal | app.py:230-270 | the values of a grouped-sum result add up to the total revenue |
| Metrics.SummaryMatchesBooths | app.py:267-280 | the summary's `total_revenue` equals the sum of the revenue-by-booth values |
| Metrics.Lookup | app.py:289-293 | `usage_dict.get(service, 0)` gives 0 for a service with no row; with several rows of that name the dict keeps the last, and so does the lookup (`LookupFinds`) |
| Metrics.LookupGroupSums | app.py:284-293 | looking a service up in the grouped usage gives its summed revenue, or 0 when it has no transactions |
| Metrics.LimitEntryFor | app.py:293-304 | remaining plus usage is the limit. The percentage is usage/limit·100 for a positive limit, else 0. `is_low` holds exactly when usage exceeds 90% of the limit |
| Metrics.ServiceLimitsFor | app.py:282-306 | one entry per configured service, in table order, each exactly `LimitEntryFor` of its limit and its true summed usage, so remaining, percentage and `is_low` are the ones computed from that usage |
| Metrics.ServiceLimits | app.py:282-306 | the answer has five entries, Airtel Money, FNB, MTN Money, Zamtel Money and Zanaco with their configured limits, each exactly `LimitEntryFor` of that limit and the service's summed usage |
| Metrics.UnusedService | app.py:293-303 | a configured service without transactions shows 0 usage, its whole limit remaining, 0%, and no warning |
| Metrics.LimitsPositive | app.py:43-49 | every configured limit is positive |
| ServerAuth.LoginRequired | app.py:382-384 | `login_required` admits exactly the requests that carry a session, and never answers 403 |
| ServerAuth.RoleRequired | app.py:81-90 | no session redirects. A session is admitted exactly when its role is the required one or `admin`; otherwise the answer is 403 |
| ServerAuth.AdminPassesEverything | app.py:86 | an admin passes every role gate, and the `admin` gate admits admins only |
| ServerAuth.FindUser | app.py:174 | the first account in table order with that username, or none exactly when no account has it |
| ServerAuth.LoginDecision | app.py:169-187 | an absent or empty field gives "required". A success names an account of the table with exactly that username and password |
| ServerAuth.LoginStatus | app.py:171-187 | 200 exactly for a success, 400 exactly for a missing field, 401 exactly for bad credentials |
| ServerAuth.Login | app.py:171-187 | a 200 logs in an account with that username. A 400 answers exactly a missing or empty field, a 401 exactly an unknown username or a wrong password; both leave the session as it was |
| ServerAuth.LoginSucceedsIff | app.py:174-175 | with unique usernames, a login with non-empty fields succeeds exactly when some account has that username and password |
| ServerAuth.CurrentUser | app.py:189-206 | `/api/user` answers 200 with the session's `{username, role}`, or 401 with no user |
| ServerAuth.LoginThenCurrentUser | app.py:176-205 | after a successful login, `/api/user` reports the account that logged in |
| ServerAuth.FailedLoginKeepsSession | app.py:171-187 | a failed login leaves whoever was logged in still logged in |
| Alerts.Unread | app.py:385 | `filter_by(is_read=False)` keeps exactly the unread rows, each as many times as it occurs in the table and no read row |
| Alerts.GetAlerts | app.py:382-392 | no session redirects. Otherwise the answer is `min(10, unread)` unread rows of the table, newest first, a sub-multiset of the unread rows (no row listed twice) |
| Alerts.ListingKeepsNewest | app.py:385 | an unread alert left out of the listing is no newer than any alert listed |
| Alerts.MarkRow | app.py:397-398 | marking sets the read flag of the addressed rows and leaves every other row unchanged |
| Alerts.MarkRead | app.py:394-400 | no session redirects; an unknown id gives 404 and changes nothing; ids and messages are never changed |
| Alerts.MarkReadIdempotent | app.py:394-400 | marking an alert read twice is the same as marking it once |
| Alerts.MarkReadFrame | app.py:397-398 | only the addressed row can change, and only its read flag |
| Alerts.MarkedNotListed | app.py:385-400 | once an alert is marked read it no longer appears in the listing |
| Alerts.MarkReadTouchesOne | app.py:394-398 | with unique ids, marking touches exactly one row |
| Consistency.VisibilityMatchesGates | dashboard.js:122-136 | admin elements show exactly for the roles the backend's `admin` gate admits, and manager elements for its `manager` gate |
| Consistency.GuardPrecludesMissingFields | dashboard.js:691-700 | a form the page lets through never draws the backend's 400 "required" answer |
| Consistency.Reply | dashboard.js:71-80 | the page accepts exactly a 2xx answer (`response.ok`) and takes the body's `user` field as it is, present or not; every other answer is refused |
| Consistency.BackendRepliesCarryUser | app.py:171-187 | the backend's answers to a JSON login are a 200 carrying the account's user exactly on success and a refused 400 or 401 otherwise, so the page never meets a 2xx without a user from it |
| Consistency.LoginBody | app.py:180-183 | a success answers with the account's `{username, role}`, and any other outcome with no user |
| Consistency.PageAgreesWithSession | dashboard.js:60-100 | after a submitted login, the page's user is exactly what `/api/user` reports for the new session, whether the login succeeded or not |

## Left out

- The DOM, Chart.js rendering, theme switching, keyboard shortcuts, the service worker and CSV export are presentation or I/O. They are not modelled.
- `loadPublicData` (`dashboard.js:970-980`) is not modelled. It is a second writer of the data: on page load it stores the `/api/summary` answer under `allData.summary` without a login, so the data need not be the initial data before the first reload.
- `fetch`, Socket.IO transport, `setTimeout` timing and the session cookie are replaced by parameters:
  - a settled outcome per endpoint;
  - a login reply;
  - whether the logout request went through;
  - the current session;
  - explicit `Expire` events for timers.
- The render phase of `loadAllData` (`renderAllCharts`, `populateFilterOptions`, `renderServiceLimits`, `renderAlerts`, `dashboard.js:284-287`) and its catch branch (`Failed to load dashboard data`) are not modelled. Both post notes: `renderAlerts` posts one 10 s note per stored alert (`dashboard.js:907-911`), and the catch posts an error note when rendering throws (`dashboard.js:289-291`).
- Dashboard.LoadAllData: the note count it states covers the result loop only. The render phase's alert notes and the catch branch's error note come on top.
- Dashboard.CheckAuthentication: the notes of the reload it starts cover the result loop only, as for `LoadAllData`.
- Dashboard.CommitWarnings: one warning per rejected fetch is the result loop's share; the render phase may post more notes afterwards.
- `/api/trends`, `/api/benchmarks`, `/api/export` and the CSV loader are not modelled. The client's handling of their payloads is modelled as an abstract payload.
- The model is the uncached, unlimited answer of each endpoint. `@cache.cached` (60 s, 30 s for `/api/summary`, `app.py:221-268`) can serve an answer computed from an older table, and `@limiter.limit("100 per minute")` answers 429 `Rate limit exceeded` on `/api/revenue_by_booth` (`app.py:222`, `app.py:422-424`). Neither is modelled. Swagger only documents the routes.
- The form variant of `/login` renders a page instead of JSON. The model keeps the status code and the outcome, not the page.
- Floating-point arithmetic is modelled with exact reals. `float()` conversions and rounding are not modelled.
- `jsonify` turns the list of pairs into an object and sorts its keys by default, so the client receives the rows in key order, not in score order.
- Metrics.TopServices: the most-first order is that of the query's rows; the JSON object the client receives is ordered by service name. Which five services are chosen is unaffected.
- Metrics.RevenueByService: likewise, the client receives the ten chosen services ordered by name, not by revenue.
- Metrics.TopBooths: likewise, the client receives the five chosen booths ordered by name, not by revenue.
- SQL leaves the order among equal scores unspecified. The ranking contracts hold for any order among ties.
- Alert timestamps are integers; ISO formatting of `created_at` is not modelled.
- The backend never emits `data_update` or `new_alert`. The client's handlers are modelled as written.
- Dashboard.RoleVisibility: its own contract states only that admin visibility implies manager visibility. The exact rule is stated against the backend gate in `Consistency.VisibilityMatchesGates`.
- Dashboard.HandleLoginSuccess: its contract states the recorded user, the kept notes and the warning count. The stored data is stated by `LoadAllData`, `ReloadStores` and the `Commit*` lemmas.

=== FILE: alerts.dfy ===
/**
 * The alert endpoints: `/api/alerts` lists unread alerts newest first, at
 * most ten; `POST /api/alerts/<id>/read` marks one alert read.  Both sit
 * behind `login_required`.  The table is a sequence of rows with unique
 * ids (the primary key); creation times are integers.
 */
module Alerts {
  import opened Common
  import opened Ranking
  import opened ServerAuth

  /** One row of the `alert` table. */
  datatype AlertRow = AlertRow(id: nat, kind: string, message: string, severity: string, isRead: bool, createdAt: int)

  /** `id` is the primary key. */
  predicate UniqueIds(rows: seq<AlertRow>) {
    forall i, j :: 0 <= i < j < |rows| ==> rows[i].id != rows[j].id
  }

  function CreatedAt(a: AlertRow): real { a.createdAt as real }

  /** `filter_by(is_read=False)`, in table order: each unread row as often as it occurs, no read row. */
  function Unread(rows: seq<AlertRow>): (r: seq<AlertRow>)
    ensures forall a :: a in r <==> a in rows && !a.isRead
    ensures forall a :: multiset(r)[a] == if a.isRead then 0 else multiset(rows)[a]
    ensures |r| <= |rows|
  {
    if |rows| == 0 then []
    else
      var rest := Unread(rows[..|rows| - 1]);
      var last := rows[|rows| - 1];
      assert rows == rows[..|rows| - 1] + [last];
      if last.isRead then rest else rest + [last]
  }

  /** What the listing endpoint answers. */
  datatype Listing = ListRedirect | Listed(alerts: seq<AlertRow>)

  /** `get_alerts`: unread alerts, newest first, at most ten. */
  function GetAlerts(session: Option<Account>, rows: seq<AlertRow>): (r: Listing)
    ensures session.None? <==> r.ListRedirect?
    ensures r.Listed? ==> |r.alerts| == Min(10, |Unread(rows)|)
    ensures r.Listed? ==> SortedDesc(r.alerts, CreatedAt)
    ensures r.Listed? ==> forall a :: a in r.alerts ==> a in rows && !a.isRead
    ensures r.Listed? ==> multiset(r.alerts) <= multiset(Unread(rows))
  {
    if LoginRequired(session) != Admitted then ListRedirect
    else
      var top := TopN(Unread(rows), 10, CreatedAt);
      assert forall a :: a in top ==> a in multiset(Unread(rows));
      Listed(top)
  }

  /** An unread alert left out of the listing is no newer than any alert listed. */
  lemma ListingKeepsNewest(session: Option<Account>, rows: seq<AlertRow>, a: AlertRow, b: AlertRow)
    requires session.Some?
    requires a in GetAlerts(session, rows).alerts
    requires b in rows && !b.isRead && b !in GetAlerts(session, rows).alerts
    ensures b.createdAt <= a.createdAt
  {
    var top := TopN(Unread(rows), 10, CreatedAt);
    assert b in multiset(Unread(rows));
    assert b !in multiset(top);
    TopNKeepsBest(Unread(rows), 10, CreatedAt, a, b);
  }

  /** Set the read flag of the row with the given id; every other row is untouched. */
  function MarkRow(rows: seq<AlertRow>, id: nat): (r: seq<AlertRow>)
    ensures |r| == |rows|
    ensures forall i :: 0 <= i < |rows| && rows[i].id == id ==> r[i] == rows[i].(isRead := true)
    ensures forall i :: 0 <= i < |rows| && rows[i].id != id ==> r[i] == rows[i]
  {
    seq(|rows|, i requires 0 <= i < |rows| => if rows[i].id == id then rows[i].(isRead := true) else rows[i])
  }

  /** What the mark-read endpoint answers. */
  datatype MarkReply = MarkRedirect | NotFound | Marked

  /** `mark_alert_read`: 302 without a session, 404 for an unknown id, otherwise the row is read. */
  function MarkRead(session: Option<Account>, rows: seq<AlertRow>, id: nat): (r: (MarkReply, seq<AlertRow>))
    ensures session.None? ==> r.0 == MarkRedirect && r.1 == rows
    ensures session.Some? && (forall i :: 0 <= i < |rows| ==> rows[i].id != id) ==> r.0 == NotFound && r.1 == rows
    ensures r.0 == Marked ==> exists i :: 0 <= i < |rows| && rows[i].id == id
    ensures session.Some? && (exists i :: 0 <= i < |rows| && rows[i].id == id) ==> r.0 == Marked && r.1 == MarkRow(rows, id)
    ensures session.Some? ==> forall i :: 0 <= i < |rows| && rows[i].id == id ==> r.1[i].isRead
    ensures |r.1| == |rows|
    ensures forall i :: 0 <= i < |rows| ==> r.1[i].id == rows[i].id && r.1[i].message == rows[i].message
  {
    if LoginRequired(session) != Admitted then (MarkRedirect, rows)
    else if forall i :: 0 <= i < |rows| ==> rows[i].id != id then (NotFound, rows)
    else (Marked, MarkRow(rows, id))
  }

  /** Marking an alert twice is the same as marking it once. */
  lemma MarkReadIdempotent(session: Option<Account>, rows: seq<AlertRow>, id: nat)
    ensures MarkRead(session, MarkRead(session, rows, id).1, id).1 == MarkRead(session, rows, id).1
  {
    var once := MarkRead(session, rows, id).1;
    var twice := MarkRead(session, once, id).1;
    assert twice == once;
  }

  /** Only the addressed row changes, and only its read flag. */
  lemma MarkReadFrame(session: Option<Account>, rows: seq<AlertRow>, id: nat, i: nat)
    requires i < |rows|
    ensures rows[i].id != id ==> MarkRead(session, rows, id).1[i] == rows[i]
    ensures MarkRead(session, rows, id).1[i] == rows[i] || MarkRead(session, rows, id).1[i] == rows[i].(isRead := true)
  {
  }

  /** Once an alert is marked read it no longer appears in the listing. */
  lemma MarkedNotListed(session: Option<Account>, rows: seq<AlertRow>, id: nat)
    requires session.Some? && MarkRead(session, rows, id).0 == Marked
    ensures forall a :: a in GetAlerts(session, MarkRead(session, rows, id).1).alerts ==> a.id != id
  {
    var after := MarkRead(session, rows, id).1;
    forall a | a in GetAlerts(session, after).alerts
      ensures a.id != id
    {
      var i :| 0 <= i < |after| && after[i] == a;
    }
  }

  /** With unique ids, marking touches exactly one row. */
  lemma MarkReadTouchesOne(session: Option<Account>, rows: seq<AlertRow>, id: nat, i: nat, j: nat)
    requires UniqueIds(rows) && i < |rows| && j < |rows| && i != j
    requires rows[i].id == id
    ensures MarkRead(session, rows, id).1[j] == rows[j]
  {
  }
}

=== FILE: batch.dfy ===
/**
 * The result loop of `loadAllData`: every settled fetch outcome is handled
 * in endpoint order; a fulfilled one is stored by `handleDataSuccess`
 * under the endpoint's last path segment and under its camelCase form, a
 * rejected one leaves the data alone and yields one warning
 * (`handleDataError`).  The payload type is left abstract.
 */
module Batch {
  import opened Keys
  import opened Notifications

  /** What `Promise.allSettled` reports for one fetch. */
  datatype Outcome<+P> = Fulfilled(value: P) | Rejected(reason: string)

  /** The keys `handleDataSuccess` writes for an endpoint. */
  function StorageKeys(endpoint: string): set<string> {
    {LastSegment(endpoint), CamelCase(LastSegment(endpoint))}
  }

  /** `handleDataSuccess`: the same payload under both keys, nothing else touched. */
  function StoreSuccess<P>(data: map<string, P>, endpoint: string, payload: P): (r: map<string, P>)
    ensures r.Keys == data.Keys + StorageKeys(endpoint)
    ensures forall k :: k in StorageKeys(endpoint) ==> r[k] == payload
    ensures forall k :: k in data && k !in StorageKeys(endpoint) ==> r[k] == data[k]
  {
    var key := LastSegment(endpoint);
    data[key := payload][CamelCase(key) := payload]
  }

  /** `handleDataError`: a warning with the default duration naming the endpoint without `/api/`. */
  function FailureNote(endpoint: string): (n: Note)
    ensures n.kind == "warning" && n.duration == DefaultDuration
    ensures ApiPrefix <= endpoint ==> n.message == "Failed to load " + endpoint[|ApiPrefix|..]
  {
    Note("Failed to load " + StripApi(endpoint), "warning", DefaultDuration)
  }

  /** The data after the loop and the warnings it posted, in posting order. */
  datatype Committed<P> = Committed(data: map<string, P>, warnings: seq<Note>)

  /** The endpoints whose fetch was rejected, in batch order (an independent reference filter). */
  function RejectedEndpoints<P>(results: seq<(string, Outcome<P>)>): (r: seq<string>)
    ensures |r| <= |results|
  {
    if |results| == 0 then []
    else
      var last := results[|results| - 1];
      RejectedEndpoints(results[..|results| - 1]) + (if last.1.Rejected? then [last.0] else [])
  }

  /** Indices of rejected outcomes. */
  function RejectedIndices<P>(results: seq<(string, Outcome<P>)>): set<nat> {
    set i: nat | i < |results| && results[i].1.Rejected?
  }

  /** No fulfilled outcome writes key k. */
  predicate Untouched<P>(results: seq<(string, Outcome<P>)>, k: string) {
    forall i :: 0 <= i < |results| && results[i].1.Fulfilled? ==> k !in StorageKeys(results[i].0)
  }

  /** Different endpoints of the batch write different keys. */
  predicate DisjointKeys<P>(results: seq<(string, Outcome<P>)>) {
    forall i, j :: 0 <= i < j < |results| ==> StorageKeys(results[i].0) !! StorageKeys(results[j].0)
  }

  /**
   * `results.forEach((result, index) => ...)`: outcomes are handled in
   * index order.  A key no fulfilled outcome writes keeps its old value,
   * no key is ever dropped, and exactly one warning is posted per rejected
   * endpoint, in batch order.
   */
  function CommitResults<P>(data: map<string, P>, results: seq<(string, Outcome<P>)>): (r: Committed<P>)
    ensures data.Keys <= r.data.Keys
    ensures |r.warnings| == |RejectedEndpoints(results)|
    ensures forall i :: 0 <= i < |r.warnings| ==> r.warnings[i] == FailureNote(RejectedEndpoints(results)[i])
  {
    if |results| == 0 then Committed(data, [])
    else
      var before := CommitResults(data, results[..|results| - 1]);
      var last := results[|results| - 1];
      match last.1
      case Fulfilled(p) => Committed(StoreSuccess(before.data, last.0, p), before.warnings)
      case Rejected(_) => Committed(before.data, before.warnings + [FailureNote(last.0)])
  }

  /** A key that no fulfilled outcome writes keeps its old value (or stays absent). */
  lemma {:induction false} UntouchedKept<P>(data: map<string, P>, results: seq<(string, Outcome<P>)>, k: string)
    requires Untouched(results, k)
    ensures k in CommitResults(data, results).data <==> k in data
    ensures k in data ==> CommitResults(data, results).data[k] == data[k]
  {
    if |results| > 0 {
      var n := |results| - 1;
      var init := results[..n];
      assert Untouched(init, k) by {
        forall i | 0 <= i < |init| && init[i].1.Fulfilled?
          ensures k !in StorageKeys(init[i].0)
        {
          assert init[i] == results[i];
        }
      }
      UntouchedKept(data, init, k);
    }
  }

  /** One more outcome adds its own index exactly when it is rejected. */
  lemma RejectedIndicesSnoc<P>(results: seq<(string, Outcome<P>)>)
    requires |results| > 0
    ensures |results| - 1 !in RejectedIndices(results[..|results| - 1])
    ensures RejectedIndices(results) == RejectedIndices(results[..|results| - 1]) +
      (if results[|results| - 1].1.Rejected? then {|results| - 1} else {})
  {
    var n := |results| - 1;
    var init := results[..n];
    assert forall i :: 0 <= i < n ==> init[i] == results[i];
  }

  /** One warning per rejected outcome: k rejected of n gives exactly k warnings. */
  lemma {:induction false} RejectedCount<P>(results: seq<(string, Outcome<P>)>)
    ensures |RejectedEndpoints(results)| == |RejectedIndices(results)|
    ensures |CommitResults(map[], results).warnings| == |RejectedIndices(results)|
  {
    if |results| > 0 {
      var n := |results| - 1;
      RejectedCount(results[..n]);
      RejectedIndicesSnoc(results);
    }
  }

  /** Every warning names an endpoint of the batch whose fetch was rejected. */
  lemma {:induction false} RejectedEndpointMember<P>(results: seq<(string, Outcome<P>)>, j: nat)
    requires j < |RejectedEndpoints(results)|
    ensures exists i :: 0 <= i < |results| && results[i].1.Rejected? && results[i].0 == RejectedEndpoints(results)[j]
  {
    var n := |results| - 1;
    var init := results[..n];
    var before := RejectedEndpoints(init);
    if j < |before| {
      RejectedEndpointMember(init, j);
      var i :| 0 <= i < |init| && init[i].1.Rejected? && init[i].0 == before[j];
      assert results[i] == init[i];
    } else {
      assert results[n].1.Rejected? && results[n].0 == RejectedEndpoints(results)[j];
    }
  }

  /** The last outcome of the batch is handled after all the others. */
  lemma CommitResultsSnoc<P>(data: map<string, P>, results: seq<(string, Outcome<P>)>)
    requires |results| > 0
    ensures var last := results[|results| - 1];
      var before := CommitResults(data, results[..|results| - 1]).data;
      CommitResults(data, results).data ==
        if last.1.Fulfilled? then StoreSuccess(before, last.0, last.1.value) else before
  {
  }

  /** A prefix of a batch with disjoint keys has disjoint keys. */
  lemma DisjointPrefix<P>(results: seq<(string, Outcome<P>)>, n: nat)
    requires DisjointKeys(results) && n <= |results|
    ensures DisjointKeys(results[..n])
  {
    var init := results[..n];
    forall a, b | 0 <= a < b < |init|
      ensures StorageKeys(init[a].0) !! StorageKeys(init[b].0)
    {
      assert init[a] == results[a] && init[b] == results[b];
    }
  }

  /** When endpoints write disjoint keys, a fulfilled endpoint's keys hold its new payload. */
  lemma {:induction false} FulfilledStored<P>(data: map<string, P>, results: seq<(string, Outcome<P>)>, i: nat, k: string)
    requires DisjointKeys(results)
    requires i < |results| && results[i].1.Fulfilled? && k in StorageKeys(results[i].0)
    ensures k in CommitResults(data, results).data
    ensures CommitResults(data, results).data[k] == results[i].1.value
  {
    var n := |results| - 1;
    var init := results[..n];
    CommitResultsSnoc(data, results);
    if i < n {
      assert init[i] == results[i];
      DisjointPrefix(results, n);
      FulfilledStored(data, init, i, k);
      assert StorageKeys(results[i].0) !! StorageKeys(results[n].0);
    }
  }

  /** When endpoints write disjoint keys, a rejected endpoint's keys are exactly as before. */
  lemma RejectedKept<P>(data: map<string, P>, results: seq<(string, Outcome<P>)>, i: nat, k: string)
    requires DisjointKeys(results)
    requires i < |results| && results[i].1.Rejected? && k in StorageKeys(results[i].0)
    ensures k in CommitResults(data, results).data <==> k in data
    ensures k in data ==> CommitResults(data, results).data[k] == data[k]
  {
    forall j | 0 <= j < |results| && results[j].1.Fulfilled?
      ensures k !in StorageKeys(results[j].0)
    {
      if i < j {
        assert StorageKeys(results[i].0) !! StorageKeys(results[j].0);
      } else {
        assert StorageKeys(results[j].0) !! StorageKeys(results[i].0);
      }
    }
    UntouchedKept(data, results, k);
  }

  /**
   * A key some fulfilled outcome writes ends up present with the same value
   * whatever the data was before: the last write to it wins.
   */
  lemma {:induction false} WrittenIndependent<P>(d1: map<string, P>, d2: map<string, P>, results: seq<(string, Outcome<P>)>, k: string)
    requires !Untouched(results, k)
    ensures k in CommitResults(d1, results).data && k in CommitResults(d2, results).data
    ensures CommitResults(d1, results).data[k] == CommitResults(d2, results).data[k]
  {
    var n := |results| - 1;
    var last := results[n];
    if !(last.1.Fulfilled? && k in StorageKeys(last.0)) {
      var init := results[..n];
      var i :| 0 <= i < |results| && results[i].1.Fulfilled? && k in StorageKeys(results[i].0);
      assert i < n && init[i] == results[i];
      WrittenIndependent(d1, d2, init, k);
    }
  }

  /** Running the same settled batch twice leaves the data as running it once. */
  lemma CommitDataIdempotent<P>(data: map<string, P>, results: seq<(string, Outcome<P>)>)
    ensures CommitResults(CommitResults(data, results).data, results).data == CommitResults(data, results).data
  {
    var once := CommitResults(data, results).data;
    var twice := CommitResults(once, results).data;
    forall k | k in twice
      ensures k in once && twice[k] == once[k]
    {
      if Untouched(results, k) {
        UntouchedKept(once, results, k);
      } else {
        WrittenIndependent(once, data, results, k);
      }
    }
    assert twice == once;
  }
}

=== FILE: common.dfy ===
/** Small shared vocabulary: optional values (JavaScript `null`, Python `None`) and the user record. */
module Common {

  datatype Option<+T> = None | Some(value: T)

  /** The user as both sides exchange it: `{username, role}`. */
  datatype User = User(username: string, role: string)

  function Min(a: nat, b: nat): nat {
    if a <= b then a else b
  }
}

=== FILE: consistency.dfy ===
/**
 * The page and the backend side by side: what the page shows for a role
 * agrees with the backend's role gate, the page's empty-field guard keeps
 * the backend's 400 answer out of reach, and after a login the page and
 * `/api/user` agree on who is logged in.
 */
module Consistency {
  import opened Common
  import opened Batch
  import opened Endpoints
  import opened ServerAuth
  import D = Dashboard

  /** Admin-only elements show exactly for roles the `admin` gate admits; manager elements for the `manager` gate. */
  lemma VisibilityMatchesGates(a: Account)
    ensures D.RoleVisibility(a.role).adminShown <==> RoleRequired(Some(a), "admin").Admitted?
    ensures D.RoleVisibility(a.role).managerShown <==> RoleRequired(Some(a), "manager").Admitted?
  {
  }

  /** A form the page lets through never draws the backend's "required" answer. */
  lemma GuardPrecludesMissingFields(users: seq<Account>, username: string, password: string)
    requires username != "" && password != ""
    ensures !LoginDecision(users, Some(username), Some(password)).MissingFields?
    ensures LoginStatus(LoginDecision(users, Some(username), Some(password))) in {200, 401}
  {
  }

  /**
   * How the page reads the answer to `POST /login`: `response.ok` is any
   * 2xx status, and then the body's `user` field is taken as it is, present
   * or not.
   */
  function Reply(status: int, body: Option<User>): (r: D.LoginReply)
    ensures r.Accepted? <==> 200 <= status < 300
    ensures r.Accepted? ==> r.user == body
    ensures !r.Accepted? ==> r == D.Refused
  {
    if 200 <= status < 300 then D.Accepted(body) else D.Refused
  }

  /** The body of a login answer: the account's `{username, role}` on success. */
  function LoginBody(o: LoginOutcome): (b: Option<User>)
    ensures b.Some? <==> o.Success?
    ensures o.Success? ==> b == Some(View(o.account))
  {
    if o.Success? then Some(View(o.account)) else None
  }

  /** Every answer the backend gives to `POST /login` is either a 2xx carrying a user or one the page refuses. */
  lemma BackendRepliesCarryUser(o: LoginOutcome)
    ensures Reply(LoginStatus(o), LoginBody(o)).Accepted? <==> o.Success?
    ensures o.Success? ==> Reply(LoginStatus(o), LoginBody(o)) == D.Accepted(Some(View(o.account)))
  {
  }

  /**
   * A login submitted from the page: the user the page then holds is the
   * user `/api/user` reports for the new session, and a refused login
   * leaves the page as logged in or out as the session is.
   */
  lemma PageAgreesWithSession<P>(c: D.Client<P>, session: Option<Account>, users: seq<Account>,
                                 username: string, password: string, outcomes: seq<Outcome<P>>)
    requires D.Valid(c) && |outcomes| == Count
    requires c.user == CurrentUser(session).1
    requires username != "" && password != ""
    ensures var o := LoginDecision(users, Some(username), Some(password));
      var after := Login(session, users, Some(username), Some(password)).0;
      D.SubmitLogin(c, username, password, Reply(LoginStatus(o), LoginBody(o)), outcomes).user == CurrentUser(after).1
  {
    var o := LoginDecision(users, Some(username), Some(password));
    var reply := Reply(LoginStatus(o), LoginBody(o));
    assert reply.Accepted? <==> o.Success?;
  }
}

=== FILE: dashboard.dfy ===
/**
 * The dashboard client (`DashboardApp`) as a state machine: who is logged
 * in, the data fetched so far (`allData`), the filter record and the
 * notification board.  Every event the page reacts to -- a settled data
 * batch, a login reply, a logout, a push event, a filter button -- is a
 * pure transition.  A reload's fetch results are a parameter: one settled
 * outcome per endpoint, in the order `loadAllData` lists them.
 */
module Dashboard {
  import opened Common
  import opened Keys
  import opened Batch
  import opened Endpoints
  import opened Filters
  import N = Notifications

  datatype Client<P> = Client(user: Option<User>, data: map<string, P>, filters: FilterState, board: N.Board)

  predicate Valid<P>(c: Client<P>) {
    N.Valid(c.board)
  }

  /** The endpoints whose payload the constructor initialises to `[]` rather than `{}`. */
  predicate ListShaped(e: Endpoint) {
    e == ServiceLimits || e == Trends || e == Alerts
  }

  /** The `allData` the constructor starts with: one empty object or list per camelCase key. */
  function InitialData<P>(emptyObject: P, emptyList: P): map<string, P> {
    map[
      "revenueByBooth" := emptyObject,
      "topServices" := emptyObject,
      "revenueByService" := emptyObject,
      "topBooths" := emptyObject,
      "summary" := emptyObject,
      "serviceLimits" := emptyList,
      "trends" := emptyList,
      "benchmarks" := emptyObject,
      "alerts" := emptyList
    ]
  }

  /** Every endpoint's camelCase key starts out present, holding an empty value of its shape. */
  lemma InitialDataShape<P>(emptyObject: P, emptyList: P, e: Endpoint)
    ensures CamelKey(e) in InitialData(emptyObject, emptyList)
    ensures InitialData(emptyObject, emptyList)[CamelKey(e)] == if ListShaped(e) then emptyList else emptyObject
  {
    match e
    case RevenueByBooth =>
    case TopServices =>
    case RevenueByService =>
    case TopBooths =>
    case Summary =>
    case ServiceLimits =>
    case Trends =>
    case Benchmarks =>
    case Alerts =>
  }

  /** The constructor's state: nobody logged in, default filters, no notification. */
  function Init<P>(emptyObject: P, emptyList: P): (c: Client<P>)
    ensures Valid(c) && c.user.None? && c.board.count == 0
    ensures c.filters == Defaults()
  {
    Client(None, InitialData(emptyObject, emptyList), Defaults(), N.Empty())
  }

  /** `Promise.allSettled(requests)`: the i-th outcome belongs to the i-th endpoint. */
  function Settle<P>(outcomes: seq<Outcome<P>>): (r: seq<(string, Outcome<P>)>)
    requires |outcomes| == Count
    ensures |r| == Count
    ensures forall i :: 0 <= i < Count ==> r[i].0 == Path(AtRank(i)) && r[i].1 == outcomes[i]
  {
    seq(Count, i requires 0 <= i < Count => (Path(AtRank(i)), outcomes[i]))
  }

  /** The endpoints of one batch never write a common key. */
  lemma SettleDisjoint<P>(outcomes: seq<Outcome<P>>)
    requires |outcomes| == Count
    ensures DisjointKeys(Settle(outcomes))
  {
    var results := Settle(outcomes);
    forall i, j | 0 <= i < j < |results|
      ensures StorageKeys(results[i].0) !! StorageKeys(results[j].0)
    {
      AtRankInjective(i, j);
      EndpointsDisjoint(AtRank(i), AtRank(j));
    }
  }

  /** Post one notification. */
  function Notify<P>(c: Client<P>, n: N.Note): (r: Client<P>)
    requires Valid(c)
    ensures Valid(r) && r.user == c.user && r.data == c.data && r.filters == c.filters
    ensures r.board.count == c.board.count + 1 && r.board.next == c.board.next + 1
    ensures c.board.next in r.board.shown && r.board.shown[c.board.next] == n
    ensures forall id :: id in c.board.shown ==> id in r.board.shown && r.board.shown[id] == c.board.shown[id]
  {
    c.(board := N.Post(c.board, n))
  }

  /**
   * The result loop of `loadAllData`, run when the batch settles: the
   * outcomes are committed to `allData` and one warning per rejected fetch
   * is posted.  Who is logged in is not consulted again.
   */
  function Commit<P>(c: Client<P>, results: seq<(string, Outcome<P>)>): (r: Client<P>)
    requires Valid(c)
    ensures Valid(r) && r.user == c.user && r.filters == c.filters
    ensures c.data.Keys <= r.data.Keys
    ensures r.board.count == c.board.count + |RejectedEndpoints(results)|
    ensures forall id :: id in c.board.shown ==> id in r.board.shown && r.board.shown[id] == c.board.shown[id]
  {
    var batch := CommitResults(c.data, results);
    c.(data := batch.data, board := N.PostAll(c.board, batch.warnings))
  }

  /** What a commit stores depends on the data before it alone. */
  lemma CommitSeesOnlyData<P>(c1: Client<P>, c2: Client<P>, results: seq<(string, Outcome<P>)>)
    requires Valid(c1) && Valid(c2) && c1.data == c2.data
    ensures Commit(c1, results).data == Commit(c2, results).data
  {
  }

  /** `loadAllData`: without a logged-in user nothing happens at all. */
  function LoadAllData<P>(c: Client<P>, outcomes: seq<Outcome<P>>): (r: Client<P>)
    requires Valid(c) && |outcomes| == Count
    ensures Valid(r) && r.user == c.user && r.filters == c.filters
    ensures c.user.None? ==> r == c
    ensures c.user.Some? ==> r.board.count == c.board.count + |RejectedEndpoints(Settle(outcomes))|
    ensures forall id :: id in c.board.shown ==> id in r.board.shown && r.board.shown[id] == c.board.shown[id]
  {
    if c.user.None? then c else Commit(c, Settle(outcomes))
  }

  /** A fulfilled endpoint's payload is stored under its segment and its camelCase key. */
  lemma CommitFulfilled<P>(c: Client<P>, outcomes: seq<Outcome<P>>, e: Endpoint)
    requires Valid(c) && |outcomes| == Count && outcomes[Rank(e)].Fulfilled?
    ensures Segment(e) in Commit(c, Settle(outcomes)).data && CamelKey(e) in Commit(c, Settle(outcomes)).data
    ensures Commit(c, Settle(outcomes)).data[Segment(e)] == outcomes[Rank(e)].value
    ensures Commit(c, Settle(outcomes)).data[CamelKey(e)] == outcomes[Rank(e)].value
  {
    var results := Settle(outcomes);
    SettleDisjoint(outcomes);
    PathKeys(e);
    FulfilledStored(c.data, results, Rank(e), Segment(e));
    FulfilledStored(c.data, results, Rank(e), CamelKey(e));
  }

  /** A rejected endpoint's keys are exactly as they were before the batch. */
  lemma CommitRejected<P>(c: Client<P>, outcomes: seq<Outcome<P>>, e: Endpoint, k: string)
    requires Valid(c) && |outcomes| == Count && outcomes[Rank(e)].Rejected?
    requires k == Segment(e) || k == CamelKey(e)
    ensures k in Commit(c, Settle(outcomes)).data <==> k in c.data
    ensures k in c.data ==> Commit(c, Settle(outcomes)).data[k] == c.data[k]
  {
    SettleDisjoint(outcomes);
    PathKeys(e);
    RejectedKept(c.data, Settle(outcomes), Rank(e), k);
  }

  /** The j-th warning of a batch is posted under id `next + j`. */
  lemma CommitWarningNote<P>(c: Client<P>, results: seq<(string, Outcome<P>)>, j: nat)
    requires Valid(c) && j < |RejectedEndpoints(results)|
    ensures c.board.next + j in Commit(c, results).board.shown
    ensures Commit(c, results).board.shown[c.board.next + j] == FailureNote(RejectedEndpoints(results)[j])
  {
    var batch := CommitResults(c.data, results);
    N.PostAllEntries(c.board, batch.warnings, j);
  }

  /** The j-th rejected endpoint of a batch is some endpoint whose fetch was rejected. */
  lemma RejectedEndpointOf<P>(outcomes: seq<Outcome<P>>, j: nat)
    requires |outcomes| == Count
    requires j < |RejectedEndpoints(Settle(outcomes))|
    ensures exists e: Endpoint :: outcomes[Rank(e)].Rejected? && RejectedEndpoints(Settle(outcomes))[j] == Path(e)
  {
    var results := Settle(outcomes);
    RejectedEndpointMember(results, j);
    var i :| 0 <= i < |results| && results[i].1.Rejected? && results[i].0 == RejectedEndpoints(results)[j];
    RankOfAtRank(i);
    assert outcomes[Rank(AtRank(i))].Rejected?;
  }

  /**
   * With k of the nine fetches rejected, exactly k warnings are posted, the
   * j-th under id `next + j`, each naming a rejected endpoint by its segment.
   */
  lemma CommitWarnings<P>(c: Client<P>, outcomes: seq<Outcome<P>>, j: nat)
    requires Valid(c) && |outcomes| == Count
    requires j < |RejectedIndices(Settle(outcomes))|
    ensures Commit(c, Settle(outcomes)).board.count == c.board.count + |RejectedIndices(Settle(outcomes))|
    ensures c.board.next + j in Commit(c, Settle(outcomes)).board.shown
    ensures exists e: Endpoint ::
      && outcomes[Rank(e)].Rejected?
      && Commit(c, Settle(outcomes)).board.shown[c.board.next + j] == N.Note("Failed to load " + Segment(e), "warning", N.DefaultDuration)
  {
    RejectedCount(Settle(outcomes));
    CommitWarningNote(c, Settle(outcomes), j);
    RejectedEndpointOf(outcomes, j);
    var e: Endpoint :| outcomes[Rank(e)].Rejected? && RejectedEndpoints(Settle(outcomes))[j] == Path(e);
    FailureName(e);
  }

  /** `handleLoginSuccess`: remember the user and reload. */
  function HandleLoginSuccess<P>(c: Client<P>, u: User, outcomes: seq<Outcome<P>>): (r: Client<P>)
    requires Valid(c) && |outcomes| == Count
    ensures Valid(r) && r.user == Some(u) && r.filters == c.filters
    ensures r.board.count == c.board.count + |RejectedEndpoints(Settle(outcomes))|
    ensures forall id :: id in c.board.shown ==> id in r.board.shown && r.board.shown[id] == c.board.shown[id]
  {
    LoadAllData(c.(user := Some(u)), outcomes)
  }

  /**
   * What the page learns from `POST /login`: a 2xx answer (`response.ok`)
   * with the body's `user` field, absent when the body has none; any other
   * answer; or no answer at all.
   */
  datatype LoginReply = Accepted(user: Option<User>) | Refused | Unreachable

  /**
   * `login`: on a 2xx answer the body's user is set, the reload starts, and
   * "Login successful!" is posted before the reload's results arrive (a
   * body without a user leaves nobody logged in, so that reload does
   * nothing); otherwise an error is posted and nothing else changes.
   */
  function Login<P>(c: Client<P>, reply: LoginReply, outcomes: seq<Outcome<P>>): (r: Client<P>)
    requires Valid(c) && |outcomes| == Count
    ensures Valid(r) && r.filters == c.filters
    ensures reply.Accepted? ==> r.user == reply.user
    ensures reply == Accepted(None) ==> r.data == c.data && r.board.count == c.board.count + 1
    ensures !reply.Accepted? ==> r.user == c.user && r.data == c.data && r.board.count == c.board.count + 1
    ensures forall id :: id in c.board.shown ==> id in r.board.shown && r.board.shown[id] == c.board.shown[id]
    ensures c.board.next in r.board.shown
    ensures r.board.shown[c.board.next] ==
      match reply
      case Accepted(_) => N.Note("Login successful!", "success", N.DefaultDuration)
      case Refused => N.Note("Invalid credentials!", "error", N.DefaultDuration)
      case Unreachable => N.Note("Login failed!", "error", N.DefaultDuration)
  {
    match reply
    case Accepted(u) =>
      var posted := Notify(c.(user := u), N.Note("Login successful!", "success", N.DefaultDuration));
      LoadAllData(posted, outcomes)
    case Refused => Notify(c, N.Note("Invalid credentials!", "error", N.DefaultDuration))
    case Unreachable => Notify(c, N.Note("Login failed!", "error", N.DefaultDuration))
  }

  /** An accepted login with a user reloads exactly once: the data is what a reload as that user stores, and the board gains the success note plus the reload's warnings. */
  lemma LoginReloads<P>(c: Client<P>, u: User, outcomes: seq<Outcome<P>>)
    requires Valid(c) && |outcomes| == Count
    ensures Login(c, Accepted(Some(u)), outcomes).data == LoadAllData(c.(user := Some(u)), outcomes).data
    ensures Login(c, Accepted(Some(u)), outcomes).board.count == c.board.count + 1 + |RejectedEndpoints(Settle(outcomes))|
  {
  }

  /** A reload by a logged-in user stores every fulfilled payload under both of its endpoint's keys. */
  lemma ReloadStores<P>(c: Client<P>, outcomes: seq<Outcome<P>>, e: Endpoint)
    requires Valid(c) && |outcomes| == Count && c.user.Some? && outcomes[Rank(e)].Fulfilled?
    ensures Segment(e) in LoadAllData(c, outcomes).data && CamelKey(e) in LoadAllData(c, outcomes).data
    ensures LoadAllData(c, outcomes).data[Segment(e)] == outcomes[Rank(e)].value
    ensures LoadAllData(c, outcomes).data[CamelKey(e)] == outcomes[Rank(e)].value
  {
    CommitFulfilled(c, outcomes, e);
  }

  /** `handleLoginSubmit`: an empty username or password never reaches the server. */
  function SubmitLogin<P>(c: Client<P>, username: string, password: string, reply: LoginReply, outcomes: seq<Outcome<P>>): (r: Client<P>)
    requires Valid(c) && |outcomes| == Count
    ensures Valid(r)
    ensures (username == "" || password == "") ==>
      r.user == c.user && r.data == c.data && r.board.count == c.board.count + 1
      && c.board.next in r.board.shown && r.board.shown[c.board.next] == N.Note("Please enter both username and password", "warning", N.DefaultDuration)
    ensures username != "" && password != "" ==> r == Login(c, reply, outcomes)
    ensures forall id :: id in c.board.shown ==> id in r.board.shown && r.board.shown[id] == c.board.shown[id]
  {
    if username != "" && password != "" then Login(c, reply, outcomes)
    else Notify(c, N.Note("Please enter both username and password", "warning", N.DefaultDuration))
  }

  /** `checkAuthentication`: an existing session logs the user in; otherwise nothing changes. */
  function CheckAuthentication<P>(c: Client<P>, session: Option<User>, outcomes: seq<Outcome<P>>): (r: Client<P>)
    requires Valid(c) && |outcomes| == Count
    ensures Valid(r)
    ensures session.None? ==> r == c
    ensures session.Some? ==> r.user == session && r.board.count == c.board.count + |RejectedEndpoints(Settle(outcomes))|
  {
    match session
    case Some(u) => HandleLoginSuccess(c, u, outcomes)
    case None => c
  }

  /** An existing session is exactly a reload as that user, so every fulfilled payload is stored. */
  lemma CheckAuthenticationReloads<P>(c: Client<P>, u: User, outcomes: seq<Outcome<P>>, e: Endpoint)
    requires Valid(c) && |outcomes| == Count && outcomes[Rank(e)].Fulfilled?
    ensures CheckAuthentication(c, Some(u), outcomes) == LoadAllData(c.(user := Some(u)), outcomes)
    ensures CamelKey(e) in CheckAuthentication(c, Some(u), outcomes).data
    ensures CheckAuthentication(c, Some(u), outcomes).data[CamelKey(e)] == outcomes[Rank(e)].value
  {
    ReloadStores(c.(user := Some(u)), outcomes, e);
  }

  /**
   * `logout`: when the request goes through, the user is forgotten and a
   * note is posted; the data fetched so far stays.  When it fails, nothing
   * changes.
   */
  function Logout<P>(c: Client<P>, reached: bool): (r: Client<P>)
    requires Valid(c)
    ensures Valid(r) && r.data == c.data && r.filters == c.filters
    ensures reached ==> r.user.None? && r.board.count == c.board.count + 1
    ensures reached ==> c.board.next in r.board.shown && r.board.shown[c.board.next] == N.Note("Logged out successfully!", "info", N.DefaultDuration)
    ensures !reached ==> r == c
    ensures forall id :: id in c.board.shown ==> id in r.board.shown && r.board.shown[id] == c.board.shown[id]
  {
    if reached then Notify(c.(user := None), N.Note("Logged out successfully!", "info", N.DefaultDuration))
    else c
  }

  /** What a reload stores depends on the data and the user alone, not on the board or the filters. */
  lemma ReloadSeesOnlyData<P>(c1: Client<P>, c2: Client<P>, outcomes: seq<Outcome<P>>)
    requires Valid(c1) && Valid(c2) && |outcomes| == Count
    requires c1.data == c2.data && c1.user == c2.user
    ensures LoadAllData(c1, outcomes).data == LoadAllData(c2, outcomes).data
    ensures LoadAllData(c1, outcomes).board.count - c1.board.count == LoadAllData(c2, outcomes).board.count - c2.board.count
  {
    if c1.user.Some? {
      CommitSeesOnlyData(c1, c2, Settle(outcomes));
    }
  }

  /** After a logout no reload does anything until the next login. */
  lemma LoadAfterLogout<P>(c: Client<P>, outcomes: seq<Outcome<P>>)
    requires Valid(c) && |outcomes| == Count
    ensures LoadAllData(Logout(c, true), outcomes) == Logout(c, true)
  {
  }

  /**
   * A reload started while logged in commits its results even when the
   * user logs out before they arrive: the commit step does not look at the
   * user.
   */
  lemma LateCommitAfterLogout<P>(c: Client<P>, outcomes: seq<Outcome<P>>)
    requires Valid(c) && |outcomes| == Count && c.user.Some?
    ensures Commit(Logout(c, true), Settle(outcomes)).data == LoadAllData(c, outcomes).data
    ensures Commit(Logout(c, true), Settle(outcomes)).user.None?
  {
    CommitSeesOnlyData(Logout(c, true), c, Settle(outcomes));
  }

  /** The socket events the page subscribes to. */
  /** A `new_alert` carries a message and, usually, a severity. */
  datatype PushEvent = Connected | Disconnected | DataUpdate | NewAlert(message: string, severity: Option<string>)

  /**
   * The notification each socket event posts: a short info note on
   * (re)connection and updates, a longer warning on disconnection, and an
   * alert's own text for ten seconds, with its severity as the kind (the
   * default kind when it has none).
   */
  function PushNote(ev: PushEvent): (n: N.Note)
    ensures n.duration > 0
    ensures ev.Connected? ==> n == N.Note("Real-time updates connected", "info", 3000)
    ensures ev.Disconnected? ==> n == N.Note("Real-time updates disconnected", "warning", 5000)
    ensures ev.DataUpdate? ==> n == N.Note("Data updated in real-time", "info", 2000)
    ensures ev.NewAlert? && ev.severity.Some? ==> n == N.Note(ev.message, ev.severity.value, 10000)
    ensures ev.NewAlert? && ev.severity.None? ==> n == N.Note(ev.message, N.DefaultKind, 10000)
  {
    match ev
    case Connected => N.Note("Real-time updates connected", "info", 3000)
    case Disconnected => N.Note("Real-time updates disconnected", "warning", 5000)
    case DataUpdate => N.Note("Data updated in real-time", "info", 2000)
    case NewAlert(m, s) => N.Note(m, if s.Some? then s.value else N.DefaultKind, 10000)
  }

  /**
   * The `connectWebSocket` handlers: every event posts its note first; only
   * `data_update` reloads, and it reloads exactly once.
   */
  function OnPush<P>(c: Client<P>, ev: PushEvent, outcomes: seq<Outcome<P>>): (r: Client<P>)
    requires Valid(c) && |outcomes| == Count
    ensures Valid(r) && r.user == c.user && r.filters == c.filters
    ensures c.board.next in r.board.shown && r.board.shown[c.board.next] == PushNote(ev)
    ensures !ev.DataUpdate? ==> r.data == c.data && r.board.count == c.board.count + 1
    ensures forall id :: id in c.board.shown ==> id in r.board.shown && r.board.shown[id] == c.board.shown[id]
  {
    var posted := Notify(c, PushNote(ev));
    if ev.DataUpdate? then LoadAllData(posted, outcomes) else posted
  }

  /** Every note a socket event posts is transient: its timer is armed, and when it fires the note leaves the board. */
  lemma PushNoteExpires<P>(c: Client<P>, ev: PushEvent, outcomes: seq<Outcome<P>>)
    requires Valid(c) && |outcomes| == Count && !ev.DataUpdate?
    ensures c.board.next in OnPush(c, ev, outcomes).board.timers
    ensures c.board.next !in N.Expire(OnPush(c, ev, outcomes).board, c.board.next).shown
    ensures N.Expire(OnPush(c, ev, outcomes).board, c.board.next).count == c.board.count
  {
  }

  /** A `data_update` reloads exactly once: the data is what one reload gives, and the board gains its note plus the reload's warnings. */
  lemma DataUpdateReloadsOnce<P>(c: Client<P>, outcomes: seq<Outcome<P>>)
    requires Valid(c) && |outcomes| == Count
    ensures OnPush(c, DataUpdate, outcomes).data == LoadAllData(c, outcomes).data
    ensures OnPush(c, DataUpdate, outcomes).board.count == LoadAllData(c, outcomes).board.count + 1
  {
    ReloadSeesOnlyData(Notify(c, PushNote(DataUpdate)), c, outcomes);
  }

  /** `applyFilters`: the selectors are recorded, a reload runs, and a success note is posted. */
  function ApplyFilters<P>(c: Client<P>, booth: string, service: string, dateRange: string, outcomes: seq<Outcome<P>>): (r: Client<P>)
    requires Valid(c) && |outcomes| == Count
    ensures Valid(r) && r.user == c.user
    ensures r.filters == Apply(c.filters, booth, service, dateRange)
    ensures c.board.next in r.board.shown
    ensures r.board.shown[c.board.next] == N.Note("Filters applied successfully", "success", N.DefaultDuration)
    ensures forall id :: id in c.board.shown ==> id in r.board.shown && r.board.shown[id] == c.board.shown[id]
  {
    var posted := Notify(c.(filters := Apply(c.filters, booth, service, dateRange)), N.Note("Filters applied successfully", "success", N.DefaultDuration));
    LoadAllData(posted, outcomes)
  }

  /** `resetFilters`: the defaults are restored, a reload runs, and an info note is posted. */
  function ResetFilters<P>(c: Client<P>, outcomes: seq<Outcome<P>>): (r: Client<P>)
    requires Valid(c) && |outcomes| == Count
    ensures Valid(r) && r.user == c.user
    ensures r.filters == Defaults()
    ensures c.board.next in r.board.shown
    ensures r.board.shown[c.board.next] == N.Note("Filters reset", "info", N.DefaultDuration)
    ensures forall id :: id in c.board.shown ==> id in r.board.shown && r.board.shown[id] == c.board.shown[id]
  {
    var posted := Notify(c.(filters := Reset(c.filters)), N.Note("Filters reset", "info", N.DefaultDuration));
    LoadAllData(posted, outcomes)
  }

  /**
   * The filters never reach the data: applying or resetting them reloads
   * exactly what a plain reload would, and the board gains only the
   * button's own note on top of that reload's warnings.
   */
  lemma FiltersDoNotReachData<P>(c: Client<P>, booth: string, service: string, dateRange: string, outcomes: seq<Outcome<P>>)
    requires Valid(c) && |outcomes| == Count
    ensures ApplyFilters(c, booth, service, dateRange, outcomes).data == LoadAllData(c, outcomes).data
    ensures ApplyFilters(c, booth, service, dateRange, outcomes).board.count == LoadAllData(c, outcomes).board.count + 1
    ensures ResetFilters(c, outcomes).data == LoadAllData(c, outcomes).data
    ensures ResetFilters(c, outcomes).board.count == LoadAllData(c, outcomes).board.count + 1
  {
    var applied := Notify(c.(filters := Apply(c.filters, booth, service, dateRange)), N.Note("Filters applied successfully", "success", N.DefaultDuration));
    ReloadSeesOnlyData(applied, c, outcomes);
    var reset := Notify(c.(filters := Reset(c.filters)), N.Note("Filters reset", "info", N.DefaultDuration));
    ReloadSeesOnlyData(reset, c, outcomes);
  }

  /** Which `data-role` elements `updateUIBasedOnRole` shows. */
  datatype Visibility = Visibility(adminShown: bool, managerShown: bool)

  function RoleVisibility(role: string): (v: Visibility)
    ensures v.adminShown ==> v.managerShown
  {
    if role == "admin" then Visibility(true, true)
    else if role == "manager" then Visibility(false, true)
    else Visibility(false, false)
  }

  /** `getResponsiveFontSize`: the chart font size for a window width. */
  function FontSize(width: int): (px: int)
    ensures 10 <= px <= 14
    ensures px == 10 <==> width < 480
    ensures px == 14 <==> width >= 1440
    ensures 480 <= width < 768 ==> px == 11
    ensures 768 <= width < 1024 ==> px == 12
    ensures 1024 <= width < 1440 ==> px == 13
  {
    if width < 480 then 10
    else if width < 768 then 11
    else if width < 1024 then 12
    else if width < 1440 then 13
    else 14
  }

  /** A wider window never gets a smaller font. */
  lemma FontSizeMonotone(w1: int, w2: int)
    requires w1 <= w2
    ensures FontSize(w1) <= FontSize(w2)
  {
  }
}

=== FILE: endpoints.dfy ===
/**
 * The fixed list of endpoints `loadAllData` fetches, in order, and the
 * keys under which each one's payload is stored.
 */
module Endpoints {
  import opened Common
  import opened Keys
  import opened Batch

  /** The nine data endpoints of the dashboard. */
  datatype Endpoint =
    | RevenueByBooth | TopServices | RevenueByService | TopBooths | Summary
    | ServiceLimits | Trends | Benchmarks | Alerts

  /** How many endpoints `loadAllData` fetches. */
  const Count: nat := 9

  /** The endpoint at position i of the list `loadAllData` fetches (and settles). */
  function AtRank(i: nat): Endpoint
    requires i < Count
  {
    if i == 0 then RevenueByBooth
    else if i == 1 then TopServices
    else if i == 2 then RevenueByService
    else if i == 3 then TopBooths
    else if i == 4 then Summary
    else if i == 5 then ServiceLimits
    else if i == 6 then Trends
    else if i == 7 then Benchmarks
    else Alerts
  }

  /** The position of an endpoint in that list: every endpoint is fetched. */
  function Rank(e: Endpoint): (i: nat)
    ensures i < Count && AtRank(i) == e
  {
    match e
    case RevenueByBooth => 0
    case TopServices => 1
    case RevenueByService => 2
    case TopBooths => 3
    case Summary => 4
    case ServiceLimits => 5
    case Trends => 6
    case Benchmarks => 7
    case Alerts => 8
  }

  /** Every position holds a different endpoint: Rank undoes AtRank. */
  lemma RankOfAtRank(i: nat)
    requires i < Count
    ensures Rank(AtRank(i)) == i
  {
  }

  /** No endpoint is fetched twice in one batch. */
  lemma AtRankInjective(i: nat, j: nat)
    requires i < Count && j < Count && i != j
    ensures AtRank(i) != AtRank(j)
  {
    RankOfAtRank(i);
    RankOfAtRank(j);
  }

  /** The last path segment of an endpoint's URL. */
  function Segment(e: Endpoint): (s: string)
    ensures |s| > 0 && '/' !in s
  {
    match e
    case RevenueByBooth => "revenue_by_booth"
    case TopServices => "top_services"
    case RevenueByService => "revenue_by_service"
    case TopBooths => "top_booths"
    case Summary => "summary"
    case ServiceLimits => "service_limits"
    case Trends => "trends"
    case Benchmarks => "benchmarks"
    case Alerts => "alerts"
  }

  /** The URL fetched for an endpoint. */
  function Path(e: Endpoint): (p: string)
    ensures ApiPrefix <= p && p[|ApiPrefix|..] == Segment(e)
  {
    ApiPrefix + Segment(e)
  }

  /** The camelCase key the constructor pre-populates for an endpoint. */
  function CamelKey(e: Endpoint): string {
    match e
    case RevenueByBooth => "revenueByBooth"
    case TopServices => "topServices"
    case RevenueByService => "revenueByService"
    case TopBooths => "topBooths"
    case Summary => "summary"
    case ServiceLimits => "serviceLimits"
    case Trends => "trends"
    case Benchmarks => "benchmarks"
    case Alerts => "alerts"
  }

  /** Which endpoint, if any, stores its payload under key k (an independent decoder). */
  function KeyOwner(k: string): (r: Option<Endpoint>) {
    if k == "revenue_by_booth" || k == "revenueByBooth" then Some(RevenueByBooth)
    else if k == "top_services" || k == "topServices" then Some(TopServices)
    else if k == "revenue_by_service" || k == "revenueByService" then Some(RevenueByService)
    else if k == "top_booths" || k == "topBooths" then Some(TopBooths)
    else if k == "summary" then Some(Summary)
    else if k == "service_limits" || k == "serviceLimits" then Some(ServiceLimits)
    else if k == "trends" then Some(Trends)
    else if k == "benchmarks" then Some(Benchmarks)
    else if k == "alerts" then Some(Alerts)
    else None
  }

  lemma RevenueByBoothKey()
    ensures CamelCase("revenue_by_booth") == "revenueByBooth"
  {
    assert "revenue_by_booth" == "revenue" + ['_', 'b'] + ("y" + ['_', 'b'] + "ooth");
    assert "revenueByBooth" == "revenue" + [ToUpper('b')] + ("y" + [ToUpper('b')] + "ooth");
    CamelCaseThreeWords("revenue", 'b', "y", 'b', "ooth");
  }

  lemma TopServicesKey()
    ensures CamelCase("top_services") == "topServices"
  {
    assert "top_services" == "top" + ['_', 's'] + "ervices";
    assert "topServices" == "top" + [ToUpper('s')] + "ervices";
    CamelCaseTwoWords("top", 's', "ervices");
  }

  lemma RevenueByServiceKey()
    ensures CamelCase("revenue_by_service") == "revenueByService"
  {
    assert "revenue_by_service" == "revenue" + ['_', 'b'] + ("y" + ['_', 's'] + "ervice");
    assert "revenueByService" == "revenue" + [ToUpper('b')] + ("y" + [ToUpper('s')] + "ervice");
    CamelCaseThreeWords("revenue", 'b', "y", 's', "ervice");
  }

  lemma TopBoothsKey()
    ensures CamelCase("top_booths") == "topBooths"
  {
    assert "top_booths" == "top" + ['_', 'b'] + "ooths";
    assert "topBooths" == "top" + [ToUpper('b')] + "ooths";
    CamelCaseTwoWords("top", 'b', "ooths");
  }

  lemma ServiceLimitsKey()
    ensures CamelCase("service_limits") == "serviceLimits"
  {
    assert "service_limits" == "service" + ['_', 'l'] + "imits";
    assert "serviceLimits" == "service" + [ToUpper('l')] + "imits";
    CamelCaseTwoWords("service", 'l', "imits");
  }

  /** The segment's camelCase form is the key the constructor uses for the endpoint. */
  lemma SegmentCamel(e: Endpoint)
    ensures CamelCase(Segment(e)) == CamelKey(e)
  {
    match e
    case RevenueByBooth => RevenueByBoothKey();
    case TopServices => TopServicesKey();
    case RevenueByService => RevenueByServiceKey();
    case TopBooths => TopBoothsKey();
    case ServiceLimits => ServiceLimitsKey();
    case _ => CamelCaseWord(Segment(e));
  }

  /** `handleDataSuccess` writes exactly the segment and the camelCase key of the endpoint. */
  lemma PathKeys(e: Endpoint)
    ensures StorageKeys(Path(e)) == {Segment(e), CamelKey(e)}
  {
    assert Path(e) == "/api" + "/" + Segment(e);
    LastSegmentAfterSlash("/api", Segment(e));
    SegmentCamel(e);
  }

  /** KeyOwner recovers the endpoint from its segment. */
  lemma SegmentOwner(e: Endpoint)
    ensures KeyOwner(Segment(e)) == Some(e)
  {
    match e
    case RevenueByBooth =>
    case TopServices =>
    case RevenueByService =>
    case TopBooths =>
    case Summary =>
    case ServiceLimits =>
    case Trends =>
    case Benchmarks =>
    case Alerts =>
  }

  /** KeyOwner recovers the endpoint from its camelCase key. */
  lemma CamelOwner(e: Endpoint)
    ensures KeyOwner(CamelKey(e)) == Some(e)
  {
    match e
    case RevenueByBooth =>
    case TopServices =>
    case RevenueByService =>
    case TopBooths =>
    case Summary =>
    case ServiceLimits =>
    case Trends =>
    case Benchmarks =>
    case Alerts =>
  }

  /** KeyOwner recovers the endpoint from either of its keys. */
  lemma KeyOwnerInverts(e: Endpoint)
    ensures KeyOwner(Segment(e)) == Some(e)
    ensures KeyOwner(CamelKey(e)) == Some(e)
  {
    SegmentOwner(e);
    CamelOwner(e);
  }

  /** Every key an endpoint writes is owned by that endpoint. */
  lemma OwnerOfStorageKeys(e: Endpoint)
    ensures forall k :: k in StorageKeys(Path(e)) ==> KeyOwner(k) == Some(e)
  {
    PathKeys(e);
    KeyOwnerInverts(e);
  }

  /** Sets owned by two different endpoints share no key. */
  lemma DisjointByOwner(a: set<string>, b: set<string>, e1: Endpoint, e2: Endpoint)
    requires e1 != e2
    requires forall k :: k in a ==> KeyOwner(k) == Some(e1)
    requires forall k :: k in b ==> KeyOwner(k) == Some(e2)
    ensures a !! b
  {
  }

  /** Different endpoints write different keys. */
  lemma EndpointsDisjoint(e1: Endpoint, e2: Endpoint)
    requires e1 != e2
    ensures StorageKeys(Path(e1)) !! StorageKeys(Path(e2))
  {
    OwnerOfStorageKeys(e1);
    OwnerOfStorageKeys(e2);
    DisjointByOwner(StorageKeys(Path(e1)), StorageKeys(Path(e2)), e1, e2);
  }

  /** A failed endpoint is reported as "Failed to load " followed by its segment. */
  lemma FailureName(e: Endpoint)
    ensures FailureNote(Path(e)).message == "Failed to load " + Segment(e)
  {
  }
}

=== FILE: filters.dfy ===
/**
 * The dashboard's filter record (`currentFilters`) and the two updates the
 * filter buttons perform.  Both updates are followed by a data reload,
 * modelled in the Dashboard module.
 */
module Filters {
  import opened Common

  datatype FilterState = FilterState(
    booth: string,
    service: string,
    dateRange: string,
    startDate: Option<string>,
    endDate: Option<string>)

  const All: string := "all"

  /** The record the constructor starts with and `resetFilters` restores. */
  function Defaults(): (f: FilterState)
    ensures f.booth == All && f.service == All && f.dateRange == All
    ensures f.startDate.None? && f.endDate.None?
  {
    FilterState(All, All, All, None, None)
  }

  /** `applyFilters`: the three selector values overwrite their fields; the dates are kept. */
  function Apply(f: FilterState, booth: string, service: string, dateRange: string): (r: FilterState)
    ensures r.booth == booth && r.service == service && r.dateRange == dateRange
    ensures r.startDate == f.startDate && r.endDate == f.endDate
  {
    f.(booth := booth, service := service, dateRange := dateRange)
  }

  /** `resetFilters`: the whole record is replaced, whatever it held before. */
  function Reset(f: FilterState): (r: FilterState)
    ensures r.booth == All && r.service == All && r.dateRange == All
    ensures r.startDate.None? && r.endDate.None?
  {
    Defaults()
  }

  /** Applying twice is applying the second selection once: no earlier choice leaks through. */
  lemma ApplyLastWins(f: FilterState, b1: string, s1: string, d1: string, b2: string, s2: string, d2: string)
    ensures Apply(Apply(f, b1, s1, d1), b2, s2, d2) == Apply(f, b2, s2, d2)
  {
  }

  /** Reset followed by an apply of one booth yields exactly that booth and every other default. */
  lemma ResetThenApply(f: FilterState, booth: string)
    ensures Apply(Reset(f), booth, All, All) == FilterState(booth, All, All, None, None)
  {
  }

  /** Reset forgets everything: any two records reset to the same value, and resetting is idempotent. */
  lemma ResetForgets(f: FilterState, g: FilterState)
    ensures Reset(f) == Reset(g)
    ensures Reset(Reset(f)) == Reset(f)
  {
  }

  /** Applying the default selectors to the defaults changes nothing. */
  lemma ApplyDefaultsFixed()
    ensures Apply(Defaults(), All, All, All) == Defaults()
  {
  }
}

=== FILE: keys.dfy ===
/**
 * String rewriting done by the dashboard client on endpoint paths:
 * the last path segment of an endpoint, its camelCase form (the global
 * replacement of `_` followed by a lower-case ASCII letter), and the
 * endpoint name shown in a failure message (first `/api/` removed).
 */
module Keys {

  predicate IsLower(c: char) {
    'a' <= c <= 'z'
  }

  function ToUpper(c: char): (u: char)
    requires IsLower(c)
    ensures 'A' <= u <= 'Z'
    ensures u as int == c as int - 32
  {
    (c as int - 32) as char
  }

  /** An `_` immediately followed by a lower-case letter starts at position i. */
  predicate PairAt(s: string, i: int)
    requires 0 <= i
  {
    i + 1 < |s| && s[i] == '_' && IsLower(s[i + 1])
  }

  /** No `_x` pair (x lower-case) occurs anywhere in s: the regex has nothing to match. */
  predicate NoPair(s: string) {
    forall i :: 0 <= i < |s| ==> !PairAt(s, i)
  }

  /**
   * `s.replace(/_([a-z])/g, (_, c) => c.toUpperCase())`: the regex engine
   * scans left to right and matches do not overlap, so after a match the
   * scan resumes two characters further on.
   */
  function CamelCase(s: string): (r: string)
    ensures |r| <= |s|
    ensures |s| > 0 ==> |r| > 0
    decreases |s|
  {
    if |s| == 0 then []
    else
      var n := if PairAt(s, 0) then 2 else 1;
      [if n == 2 then ToUpper(s[1]) else s[0]] + CamelCase(s[n..])
  }

  /** One step of the scan, with the two cases spelled out. */
  lemma CamelCaseUnfold(s: string)
    requires |s| > 0
    ensures PairAt(s, 0) ==> CamelCase(s) == [ToUpper(s[1])] + CamelCase(s[2..])
    ensures !PairAt(s, 0) ==> CamelCase(s) == [s[0]] + CamelCase(s[1..])
  {
  }

  /** The first character of CamelCase(s) is lower-case only if s starts with it. */
  lemma {:induction false} CamelHead(s: string)
    requires |s| > 0
    ensures IsLower(CamelCase(s)[0]) ==> CamelCase(s)[0] == s[0] && !PairAt(s, 0)
  {
  }

  /** The rewrite leaves no `_x` pair behind, and so cannot create a new match. */
  lemma {:induction false} CamelCaseNoPair(s: string)
    ensures NoPair(CamelCase(s))
    decreases |s|
  {
    if |s| == 0 {
    } else if PairAt(s, 0) {
      CamelCaseNoPair(s[2..]);
      var t := CamelCase(s[2..]);
      var r := [ToUpper(s[1])] + t;
      forall i | 0 <= i < |r|
        ensures !PairAt(r, i)
      {
        if i > 0 {
          assert r[i..] == t[i - 1..];
          assert !PairAt(t, i - 1);
        }
      }
    } else {
      CamelCaseNoPair(s[1..]);
      var t := CamelCase(s[1..]);
      var r := [s[0]] + t;
      forall i | 0 <= i < |r|
        ensures !PairAt(r, i)
      {
        if i == 0 {
          if |t| > 0 && s[0] == '_' {
            CamelHead(s[1..]);
          }
        } else {
          assert !PairAt(t, i - 1);
        }
      }
    }
  }

  /** A string with no `_x` pair is its own camelCase form. */
  lemma {:induction false} CamelCaseFixed(s: string)
    requires NoPair(s)
    ensures CamelCase(s) == s
    decreases |s|
  {
    if |s| > 0 {
      assert !PairAt(s, 0);
      var t := s[1..];
      assert NoPair(t) by {
        forall i | 0 <= i < |t|
          ensures !PairAt(t, i)
        {
          assert !PairAt(s, i + 1);
        }
      }
      CamelCaseFixed(t);
    }
  }

  /** The rewrite is idempotent. */
  lemma CamelCaseIdempotent(s: string)
    ensures CamelCase(CamelCase(s)) == CamelCase(s)
  {
    CamelCaseNoPair(s);
    CamelCaseFixed(CamelCase(s));
  }

  lemma Associative<T>(x: seq<T>, y: seq<T>, z: seq<T>)
    ensures x + (y + z) == (x + y) + z
  {
  }

  /** A match at the front of a stays a match at the front of a + b. */
  lemma PairFront(a: string, b: string)
    requires |a| > 0 && PairAt(a, 0)
    ensures CamelCase(a + b) == [ToUpper(a[1])] + CamelCase(a[2..] + b)
  {
    var ab := a + b;
    assert ab[0] == a[0] && ab[1] == a[1];
    assert ab[2..] == a[2..] + b;
    CamelCaseUnfold(ab);
  }

  /** No match at the front of a, which does not end in `_`, means none at the front of a + b. */
  lemma PlainFront(a: string, b: string)
    requires |a| > 0 && !PairAt(a, 0) && a[|a| - 1] != '_'
    ensures CamelCase(a + b) == [a[0]] + CamelCase(a[1..] + b)
  {
    var ab := a + b;
    assert !PairAt(ab, 0) by {
      if |a| == 1 {
        assert ab[0] == a[0];
      } else {
        assert ab[0] == a[0] && ab[1] == a[1];
      }
    }
    assert ab[1..] == a[1..] + b;
    CamelCaseUnfold(ab);
  }

  /** A match at the front of a is a match at the front of a + b: one step of the append law. */
  lemma AppendPairStep(a: string, b: string)
    requires |a| > 0 && PairAt(a, 0)
    requires CamelCase(a[2..] + b) == CamelCase(a[2..]) + CamelCase(b)
    ensures CamelCase(a + b) == CamelCase(a) + CamelCase(b)
  {
    PairFront(a, b);
    CamelCaseUnfold(a);
    Associative([ToUpper(a[1])], CamelCase(a[2..]), CamelCase(b));
  }

  /** No match at the front of a, which does not end in `_`: one step of the append law. */
  lemma AppendPlainStep(a: string, b: string)
    requires |a| > 0 && !PairAt(a, 0) && a[|a| - 1] != '_'
    requires CamelCase(a[1..] + b) == CamelCase(a[1..]) + CamelCase(b)
    ensures CamelCase(a + b) == CamelCase(a) + CamelCase(b)
  {
    PlainFront(a, b);
    CamelCaseUnfold(a);
    Associative([a[0]], CamelCase(a[1..]), CamelCase(b));
  }

  /** No match straddles a boundary that does not follow an `_`. */
  lemma {:induction false} CamelCaseAppend(a: string, b: string)
    requires |a| == 0 || a[|a| - 1] != '_'
    ensures CamelCase(a + b) == CamelCase(a) + CamelCase(b)
    decreases |a|
  {
    if |a| == 0 {
      assert a + b == b;
    } else if PairAt(a, 0) {
      CamelCaseAppend(a[2..], b);
      AppendPairStep(a, b);
    } else {
      CamelCaseAppend(a[1..], b);
      AppendPlainStep(a, b);
    }
  }

  /** A word without `_` is unchanged. */
  lemma CamelCaseWord(w: string)
    requires '_' !in w
    ensures CamelCase(w) == w
  {
    CamelCaseFixed(w);
  }

  /** `_` followed by a lower-case letter becomes that letter in upper case. */
  lemma CamelCasePair(c: char, t: string)
    requires IsLower(c)
    ensures CamelCase(['_', c] + t) == [ToUpper(c)] + CamelCase(t)
  {
    assert (['_', c] + t)[2..] == t;
  }

  /** camelCase of `w1_cw2` where neither word holds an `_`. */
  lemma CamelCaseTwoWords(w1: string, c: char, w2: string)
    requires '_' !in w1 && |w1| > 0 && IsLower(c) && '_' !in w2
    ensures CamelCase(w1 + ['_', c] + w2) == w1 + [ToUpper(c)] + w2
  {
    Associative(w1, ['_', c], w2);
    assert w1[|w1| - 1] in w1;
    CamelCaseAppend(w1, ['_', c] + w2);
    CamelCaseWord(w1);
    CamelCasePair(c, w2);
    CamelCaseWord(w2);
    Associative(w1, [ToUpper(c)], w2);
  }

  /** camelCase of `w1_c2w2_c3w3` where no word holds an `_`. */
  lemma CamelCaseThreeWords(w1: string, c2: char, w2: string, c3: char, w3: string)
    requires '_' !in w1 && |w1| > 0 && IsLower(c2)
    requires '_' !in w2 && |w2| > 0 && IsLower(c3)
    requires '_' !in w3
    ensures CamelCase(w1 + ['_', c2] + (w2 + ['_', c3] + w3)) == w1 + [ToUpper(c2)] + (w2 + [ToUpper(c3)] + w3)
  {
    var rest := w2 + ['_', c3] + w3;
    Associative(w1, ['_', c2], rest);
    assert w1[|w1| - 1] in w1;
    CamelCaseAppend(w1, ['_', c2] + rest);
    CamelCaseWord(w1);
    CamelCasePair(c2, rest);
    CamelCaseTwoWords(w2, c3, w3);
    Associative(w1, [ToUpper(c2)], w2 + [ToUpper(c3)] + w3);
  }

  /** `endpoint.split('/').pop()`: everything after the last `/`, or all of it. */
  function LastSegment(s: string): (r: string)
    ensures '/' !in r
  {
    if |s| == 0 then []
    else if s[|s| - 1] == '/' then []
    else LastSegment(s[..|s| - 1]) + [s[|s| - 1]]
  }

  /** A suffix of the prefix without the last character, extended by that character. */
  lemma SnocSuffix(s: string, k: nat)
    requires k < |s|
    ensures s[..|s| - 1][|s| - 1 - k..] + [s[|s| - 1]] == s[|s| - 1 - k..]
  {
  }

  /** The last segment of s is the longest slash-free suffix of s. */
  predicate SegmentIsSuffix(s: string) {
    && |LastSegment(s)| <= |s|
    && LastSegment(s) == s[|s| - |LastSegment(s)|..]
    && (|LastSegment(s)| < |s| ==> s[|s| - |LastSegment(s)| - 1] == '/')
  }

  /** Extending by a character other than `/` extends the last segment by it. */
  lemma SuffixStep(s: string)
    requires |s| > 0 && s[|s| - 1] != '/'
    requires SegmentIsSuffix(s[..|s| - 1])
    ensures SegmentIsSuffix(s)
  {
    var init := s[..|s| - 1];
    var m := |LastSegment(init)|;
    assert LastSegment(s) == LastSegment(init) + [s[|s| - 1]];
    SnocSuffix(s, m);
    if m + 1 < |s| {
      assert s[|s| - m - 2] == init[|init| - m - 1];
    }
  }

  /** The last segment is the longest slash-free suffix: it is preceded by a `/` unless it is everything. */
  lemma {:induction false} LastSegmentIsSuffix(s: string)
    ensures |LastSegment(s)| <= |s|
    ensures LastSegment(s) == s[|s| - |LastSegment(s)|..]
    ensures |LastSegment(s)| < |s| ==> s[|s| - |LastSegment(s)| - 1] == '/'
  {
    if |s| > 0 && s[|s| - 1] != '/' {
      LastSegmentIsSuffix(s[..|s| - 1]);
      SuffixStep(s);
    } else {
      assert LastSegment(s) == [];
    }
  }

  const ApiPrefix: string := "/api/"

  /** `endpoint.replace('/api/', '')`: a string pattern replaces only its first occurrence. */
  function StripApi(s: string): (r: string)
    ensures |r| == |s| || |r| == |s| - |ApiPrefix|
    ensures ApiPrefix <= s ==> r == s[|ApiPrefix|..]
    decreases |s|
  {
    if ApiPrefix <= s then s[|ApiPrefix|..]
    else if |s| == 0 then s
    else [s[0]] + StripApi(s[1..])
  }

  /** When `/api/` does not occur, the name is shown unchanged. */
  lemma {:induction false} StripApiAbsent(s: string)
    requires forall i :: 0 <= i <= |s| ==> !(ApiPrefix <= s[i..])
    ensures StripApi(s) == s
    decreases |s|
  {
    if |s| > 0 {
      assert !(ApiPrefix <= s[0..]) && s[0..] == s;
      forall i | 0 <= i <= |s[1..]|
        ensures !(ApiPrefix <= s[1..][i..])
      {
        assert s[1..][i..] == s[i + 1..];
      }
      StripApiAbsent(s[1..]);
    }
  }

  /** The segment after a final `/` is exactly the text following it. */
  lemma {:induction false} LastSegmentAfterSlash(p: string, x: string)
    requires '/' !in x
    ensures LastSegment(p + "/" + x) == x
    decreases |x|
  {
    var s := p + "/" + x;
    if |x| == 0 {
      assert s[|s| - 1] == '/';
    } else {
      var init := x[..|x| - 1];
      assert s[|s| - 1] == x[|x| - 1] != '/';
      assert s[..|s| - 1] == p + "/" + init;
      assert LastSegment(s) == LastSegment(p + "/" + init) + [x[|x| - 1]];
      LastSegmentAfterSlash(p, init);
      assert x == init + [x[|x| - 1]];
    }
  }
}

=== FILE: metrics.dfy ===
/**
 * The aggregate endpoints of the backend as pure functions over the
 * transaction table: grouped sums and counts, the ranked top-N views, the
 * summary and the per-service limits.  Amounts are exact reals.
 */
module Metrics {
  import opened Common
  import opened Ranking

  /** One row of the `transaction` table. */
  datatype Transaction = Transaction(
    id: nat,
    booth: string,
    service: string,
    amount: real,
    ratePerKwacha: real,
    revenue: real)

  function BoothOf(t: Transaction): string { t.booth }
  function ServiceOf(t: Transaction): string { t.service }

  /** The grouping column of every row, in table order. */
  function Column(ts: seq<Transaction>, key: Transaction -> string): (r: seq<string>)
    ensures |r| == |ts|
    ensures forall i :: 0 <= i < |ts| ==> r[i] == key(ts[i])
  {
    seq(|ts|, i requires 0 <= i < |ts| => key(ts[i]))
  }

  /** The distinct values of ks in order of first appearance: the groups of a GROUP BY. */
  function Distinct(ks: seq<string>): (r: seq<string>)
    ensures forall i, j :: 0 <= i < j < |r| ==> r[i] != r[j]
    ensures forall k :: k in r <==> k in ks
    ensures |r| <= |ks|
  {
    if |ks| == 0 then []
    else
      var d := Distinct(ks[..|ks| - 1]);
      assert ks == ks[..|ks| - 1] + [ks[|ks| - 1]];
      if ks[|ks| - 1] in d then d else d + [ks[|ks| - 1]]
  }

  /** `SUM(revenue)` over the rows whose key is k (0 when there are none). */
  function SumFor(ts: seq<Transaction>, key: Transaction -> string, k: string): real {
    if |ts| == 0 then 0.0
    else SumFor(ts[..|ts| - 1], key, k) + (if key(ts[|ts| - 1]) == k then ts[|ts| - 1].revenue else 0.0)
  }

  /** `COUNT(id)` over the rows whose key is k. */
  function CountFor(ts: seq<Transaction>, key: Transaction -> string, k: string): nat {
    if |ts| == 0 then 0
    else CountFor(ts[..|ts| - 1], key, k) + (if key(ts[|ts| - 1]) == k then 1 else 0)
  }

  /** A group that occurs has at least one row; one that does not has none. */
  lemma {:induction false} CountForPositive(ts: seq<Transaction>, key: Transaction -> string, k: string)
    ensures CountFor(ts, key, k) > 0 <==> k in Column(ts, key)
  {
    if |ts| > 0 {
      var init := ts[..|ts| - 1];
      CountForPositive(init, key, k);
      assert Column(ts, key) == Column(init, key) + [key(ts[|ts| - 1])];
    }
  }

  /** A key with no rows sums to 0. */
  lemma {:induction false} SumForAbsent(ts: seq<Transaction>, key: Transaction -> string, k: string)
    requires k !in Column(ts, key)
    ensures SumFor(ts, key, k) == 0.0
  {
    if |ts| > 0 {
      var init := ts[..|ts| - 1];
      assert Column(ts, key) == Column(init, key) + [key(ts[|ts| - 1])];
      SumForAbsent(init, key, k);
    }
  }

  /** One `(group, sum)` row per key of ks. */
  function SumRows(ts: seq<Transaction>, key: Transaction -> string, ks: seq<string>): (r: seq<(string, real)>)
    ensures |r| == |ks|
    ensures forall i :: 0 <= i < |ks| ==> r[i] == (ks[i], SumFor(ts, key, ks[i]))
  {
    if |ks| == 0 then []
    else SumRows(ts, key, ks[..|ks| - 1]) + [(ks[|ks| - 1], SumFor(ts, key, ks[|ks| - 1]))]
  }

  /** `GROUP BY key` with `SUM(revenue)`. */
  function GroupSums(ts: seq<Transaction>, key: Transaction -> string): (r: seq<(string, real)>)
    ensures |r| == |Distinct(Column(ts, key))|
    ensures forall i :: 0 <= i < |r| ==> r[i].0 in Column(ts, key) && r[i].1 == SumFor(ts, key, r[i].0)
    ensures forall k :: k in Column(ts, key) ==> exists i :: 0 <= i < |r| && r[i].0 == k
    ensures UniqueNames(r, RowName)
  {
    var ks := Distinct(Column(ts, key));
    var r := SumRows(ts, key, ks);
    assert forall k :: k in Column(ts, key) ==> exists i :: 0 <= i < |r| && r[i].0 == k by {
      forall k | k in Column(ts, key)
        ensures exists i :: 0 <= i < |r| && r[i].0 == k
      {
        var i :| 0 <= i < |ks| && ks[i] == k;
        assert r[i].0 == k;
      }
    }
    r
  }

  /** `GROUP BY key` with `COUNT(id)`. */
  function GroupCounts(ts: seq<Transaction>, key: Transaction -> string): (r: seq<(string, nat)>)
    ensures |r| == |Distinct(Column(ts, key))|
    ensures forall i :: 0 <= i < |r| ==> r[i].0 in Column(ts, key) && r[i].1 == CountFor(ts, key, r[i].0)
    ensures forall k :: k in Column(ts, key) ==> exists i :: 0 <= i < |r| && r[i].0 == k
    ensures UniqueNames(r, CountName)
  {
    var ks := Distinct(Column(ts, key));
    var r := seq(|ks|, i requires 0 <= i < |ks| => (ks[i], CountFor(ts, key, ks[i])));
    assert forall k :: k in Column(ts, key) ==> exists i :: 0 <= i < |r| && r[i].0 == k by {
      forall k | k in Column(ts, key)
        ensures exists i :: 0 <= i < |r| && r[i].0 == k
      {
        var i :| 0 <= i < |ks| && ks[i] == k;
        assert r[i].0 == k;
      }
    }
    r
  }

  function RowName(row: (string, real)): string { row.0 }
  function RowValue(row: (string, real)): real { row.1 }
  function CountName(row: (string, nat)): string { row.0 }
  function CountValue(row: (string, nat)): real { row.1 as real }

  /** `/api/revenue_by_booth`: every booth with its summed revenue (no ordering, no limit). */
  function RevenueByBooth(ts: seq<Transaction>): (r: seq<(string, real)>)
    ensures forall i :: 0 <= i < |r| ==> r[i].0 in Column(ts, BoothOf) && r[i].1 == SumFor(ts, BoothOf, r[i].0)
    ensures forall b :: b in Column(ts, BoothOf) ==> exists i :: 0 <= i < |r| && r[i].0 == b
    ensures UniqueNames(r, RowName)
  {
    GroupSums(ts, BoothOf)
  }

  /** `/api/top_services`: services by transaction count, most first, at most 5. */
  function TopServices(ts: seq<Transaction>): (r: seq<(string, nat)>)
    ensures |r| == Min(5, |Distinct(Column(ts, ServiceOf))|)
    ensures SortedDesc(r, CountValue)
  {
    TopN(GroupCounts(ts, ServiceOf), 5, CountValue)
  }

  /** `/api/revenue_by_service`: services by summed revenue, highest first, at most 10. */
  function RevenueByService(ts: seq<Transaction>): (r: seq<(string, real)>)
    ensures |r| == Min(10, |Distinct(Column(ts, ServiceOf))|)
    ensures SortedDesc(r, RowValue)
  {
    TopN(GroupSums(ts, ServiceOf), 10, RowValue)
  }

  /** `/api/top_booths`: booths by summed revenue, highest first, at most 5. */
  function TopBooths(ts: seq<Transaction>): (r: seq<(string, real)>)
    ensures |r| == Min(5, |Distinct(Column(ts, BoothOf))|)
    ensures SortedDesc(r, RowValue)
  {
    TopN(GroupSums(ts, BoothOf), 5, RowValue)
  }

  /** Each top-services row is a service with its true count; a service left out has no more transactions than one listed. */
  lemma TopServicesRows(ts: seq<Transaction>)
    ensures forall row :: row in TopServices(ts) ==> row.1 == CountFor(ts, ServiceOf, row.0) && row.1 > 0
    ensures UniqueNames(TopServices(ts), CountName)
    ensures forall row, s ::
      (row in TopServices(ts) && s in Column(ts, ServiceOf) && (forall i :: 0 <= i < |TopServices(ts)| ==> TopServices(ts)[i].0 != s))
      ==> CountFor(ts, ServiceOf, s) <= row.1
  {
    var groups := GroupCounts(ts, ServiceOf);
    var r := TopServices(ts);
    TopNOfTable(groups, 5, CountValue, CountName);
    forall row | row in r
      ensures row.1 == CountFor(ts, ServiceOf, row.0) && row.1 > 0
    {
      var i :| 0 <= i < |groups| && groups[i] == row;
      CountForPositive(ts, ServiceOf, row.0);
    }
    forall row, s | row in r && s in Column(ts, ServiceOf) && (forall i :: 0 <= i < |r| ==> r[i].0 != s)
      ensures CountFor(ts, ServiceOf, s) <= row.1
    {
      var i :| 0 <= i < |groups| && groups[i].0 == s;
      assert groups[i] !in r;
      assert CountValue(row) >= CountValue(groups[i]);
    }
  }

  /** Each row of a revenue top-N is a group with its true sum, and no group is listed twice. */
  lemma TopRevenueRows(ts: seq<Transaction>, key: Transaction -> string, n: nat)
    ensures forall row :: row in TopN(GroupSums(ts, key), n, RowValue) ==> row.0 in Column(ts, key) && row.1 == SumFor(ts, key, row.0)
    ensures UniqueNames(TopN(GroupSums(ts, key), n, RowValue), RowName)
  {
    var groups := GroupSums(ts, key);
    TopNOfTable(groups, n, RowValue, RowName);
    forall row | row in TopN(groups, n, RowValue)
      ensures row.0 in Column(ts, key) && row.1 == SumFor(ts, key, row.0)
    {
      var i :| 0 <= i < |groups| && groups[i] == row;
    }
  }

  /** A group left out of a revenue top-N earns no more than any group listed. */
  lemma TopRevenueBest(ts: seq<Transaction>, key: Transaction -> string, n: nat, row: (string, real), k: string)
    requires row in TopN(GroupSums(ts, key), n, RowValue) && k in Column(ts, key)
    requires forall i :: 0 <= i < |TopN(GroupSums(ts, key), n, RowValue)| ==> TopN(GroupSums(ts, key), n, RowValue)[i].0 != k
    ensures SumFor(ts, key, k) <= row.1
  {
    var groups := GroupSums(ts, key);
    var r := TopN(groups, n, RowValue);
    var i :| 0 <= i < |groups| && groups[i].0 == k;
    assert groups[i] !in multiset(r);
    assert groups[i] in multiset(groups) - multiset(r);
    TopNKeepsBest(groups, n, RowValue, row, groups[i]);
  }

  /** `SUM(revenue)` over the whole table (`or 0` when it is empty). */
  function Total(ts: seq<Transaction>): real {
    if |ts| == 0 then 0.0 else Total(ts[..|ts| - 1]) + ts[|ts| - 1].revenue
  }

  /** The values of a grouped result, added up. */
  function SumValues(rows: seq<(string, real)>): real {
    if |rows| == 0 then 0.0 else SumValues(rows[..|rows| - 1]) + rows[|rows| - 1].1
  }

  /** `/api/summary`. */
  datatype Summary = Summary(totalRevenue: real, totalTransactions: nat, uniqueServices: nat, uniqueBooths: nat)

  /** A sequence without repeats has as many elements as its set of values. */
  lemma {:induction false} DistinctCard(d: seq<string>)
    requires forall i, j :: 0 <= i < j < |d| ==> d[i] != d[j]
    ensures |set x | x in d| == |d|
  {
    if |d| > 0 {
      var n := |d| - 1;
      var init := d[..n];
      DistinctCard(init);
      assert d[n] !in init by {
        forall i | 0 <= i < n
          ensures init[i] != d[n]
        {
          assert init[i] == d[i];
        }
      }
      assert d == init + [d[n]];
      assert (set x | x in d) == (set x | x in init) + {d[n]};
    }
  }

  /** The values a key takes over the table. */
  function KeySet(ts: seq<Transaction>, key: Transaction -> string): set<string> {
    set t | t in ts :: key(t)
  }

  /** The values of the service and booth columns. */
  lemma KeySets(ts: seq<Transaction>)
    ensures KeySet(ts, ServiceOf) == set t | t in ts :: t.service
    ensures KeySet(ts, BoothOf) == set t | t in ts :: t.booth
  {
  }

  /** The number of groups of a GROUP BY is the number of distinct values of its key: `COUNT(DISTINCT key)`. */
  lemma DistinctCount(ts: seq<Transaction>, key: Transaction -> string)
    ensures |Distinct(Column(ts, key))| == |KeySet(ts, key)|
  {
    var d := Distinct(Column(ts, key));
    DistinctCard(d);
    assert (set x | x in d) == KeySet(ts, key) by {
      forall x | x in d
        ensures x in KeySet(ts, key)
      {
        var i :| 0 <= i < |ts| && Column(ts, key)[i] == x;
        assert ts[i] in ts;
      }
      forall t | t in ts
        ensures key(t) in d
      {
        var i :| 0 <= i < |ts| && ts[i] == t;
        assert Column(ts, key)[i] == key(t);
      }
    }
  }

  function SummaryOf(ts: seq<Transaction>): (r: Summary)
    ensures r.totalTransactions == |ts|
    ensures r.uniqueServices == |set t | t in ts :: t.service|
    ensures r.uniqueBooths == |set t | t in ts :: t.booth|
    ensures r.uniqueServices <= |ts| && r.uniqueBooths <= |ts|
    ensures |ts| > 0 ==> r.uniqueServices > 0 && r.uniqueBooths > 0
  {
    assert |ts| > 0 ==> ServiceOf(ts[0]) in Column(ts, ServiceOf) && BoothOf(ts[0]) in Column(ts, BoothOf);
    DistinctCount(ts, ServiceOf);
    DistinctCount(ts, BoothOf);
    KeySets(ts);
    Summary(Total(ts), |ts|, |Distinct(Column(ts, ServiceOf))|, |Distinct(Column(ts, BoothOf))|)
  }

  /** The summed revenue of the groups named in ks. */
  function KeySum(ts: seq<Transaction>, key: Transaction -> string, ks: seq<string>): real {
    if |ks| == 0 then 0.0 else KeySum(ts, key, ks[..|ks| - 1]) + SumFor(ts, key, ks[|ks| - 1])
  }

  /** One more table row adds its revenue to its own group only. */
  lemma SumForSnoc(ts: seq<Transaction>, key: Transaction -> string, t: Transaction, k: string)
    ensures SumFor(ts + [t], key, k) == SumFor(ts, key, k) + (if key(t) == k then t.revenue else 0.0)
  {
    assert (ts + [t])[..|ts|] == ts;
  }

  /** One more table row adds its revenue to the groups of ks once, if its group is among them. */
  lemma {:induction false} KeySumSnoc(ts: seq<Transaction>, key: Transaction -> string, ks: seq<string>, t: Transaction)
    requires forall i, j :: 0 <= i < j < |ks| ==> ks[i] != ks[j]
    ensures KeySum(ts + [t], key, ks) == KeySum(ts, key, ks) + (if key(t) in ks then t.revenue else 0.0)
  {
    if |ks| > 0 {
      var n := |ks| - 1;
      var init := ks[..n];
      assert ks == init + [ks[n]];
      KeySumSnoc(ts, key, init, t);
      SumForSnoc(ts, key, t, ks[n]);
      if key(t) == ks[n] {
        assert key(t) !in init by {
          forall i | 0 <= i < |init|
            ensures init[i] != key(t)
          {
            assert init[i] == ks[i];
          }
        }
      }
    }
  }

  /** Adding up the grouped rows is adding up the groups' sums. */
  lemma {:induction false} SumValuesRows(ts: seq<Transaction>, key: Transaction -> string, ks: seq<string>)
    ensures SumValues(SumRows(ts, key, ks)) == KeySum(ts, key, ks)
  {
    if |ks| > 0 {
      var n := |ks| - 1;
      SumValuesRows(ts, key, ks[..n]);
      var rows := SumRows(ts, key, ks);
      assert rows[..n] == SumRows(ts, key, ks[..n]);
    }
  }

  /** The groups after one more row: the old groups, plus the row's own if it is new. */
  lemma DistinctSnoc(ts: seq<Transaction>, key: Transaction -> string, t: Transaction)
    ensures Column(ts + [t], key) == Column(ts, key) + [key(t)]
    ensures Distinct(Column(ts + [t], key)) ==
      var d := Distinct(Column(ts, key));
      if key(t) in d then d else d + [key(t)]
  {
    var c := Column(ts + [t], key);
    assert c == Column(ts, key) + [key(t)];
    assert c[..|c| - 1] == Column(ts, key);
  }

  /** A row of a new group adds a group whose sum is that row's revenue alone. */
  lemma NewGroupStep(ts: seq<Transaction>, key: Transaction -> string, t: Transaction)
    requires KeySum(ts, key, Distinct(Column(ts, key))) == Total(ts)
    requires key(t) !in Distinct(Column(ts, key))
    ensures KeySum(ts + [t], key, Distinct(Column(ts, key)) + [key(t)]) == Total(ts + [t])
  {
    var d := Distinct(Column(ts, key));
    var e := d + [key(t)];
    assert e[..|d|] == d;
    KeySumSnoc(ts, key, d, t);
    SumForAbsent(ts, key, key(t));
    SumForSnoc(ts, key, t, key(t));
    assert (ts + [t])[..|ts|] == ts;
  }

  /** A row of an existing group adds its revenue to that group's sum. */
  lemma OldGroupStep(ts: seq<Transaction>, key: Transaction -> string, t: Transaction)
    requires KeySum(ts, key, Distinct(Column(ts, key))) == Total(ts)
    requires key(t) in Distinct(Column(ts, key))
    ensures KeySum(ts + [t], key, Distinct(Column(ts, key))) == Total(ts + [t])
  {
    KeySumSnoc(ts, key, Distinct(Column(ts, key)), t);
    assert (ts + [t])[..|ts|] == ts;
  }

  /** The groups of a GROUP BY partition the table: their sums add up to the total. */
  lemma {:induction false} TotalByGroups(ts: seq<Transaction>, key: Transaction -> string)
    ensures KeySum(ts, key, Distinct(Column(ts, key))) == Total(ts)
  {
    if |ts| > 0 {
      var init := ts[..|ts| - 1];
      var t := ts[|ts| - 1];
      assert ts == init + [t];
      TotalByGroups(init, key);
      DistinctSnoc(init, key, t);
      if key(t) in Distinct(Column(init, key)) {
        OldGroupStep(init, key, t);
      } else {
        NewGroupStep(init, key, t);
      }
    }
  }

  /**
   * The summed revenue of all groups is the table's total, so
   * `/api/summary`'s `total_revenue` equals the sum of
   * `/api/revenue_by_booth`'s values.
   */
  lemma GroupSumsTotal(ts: seq<Transaction>, key: Transaction -> string)
    ensures SumValues(GroupSums(ts, key)) == Total(ts)
  {
    SumValuesRows(ts, key, Distinct(Column(ts, key)));
    TotalByGroups(ts, key);
  }

  /** Summary and revenue-by-booth agree on the total. */
  lemma SummaryMatchesBooths(ts: seq<Transaction>)
    ensures SummaryOf(ts).totalRevenue == SumValues(RevenueByBooth(ts))
  {
    GroupSumsTotal(ts, BoothOf);
  }

  /**
   * `usage_dict.get(service, 0)`, where `usage_dict` is built from the
   * grouped rows in order, so a later row named k overwrites an earlier
   * one: the last row named k, or 0.
   */
  function Lookup(rows: seq<(string, real)>, k: string): (v: real)
    ensures (forall i :: 0 <= i < |rows| ==> rows[i].0 != k) ==> v == 0.0
  {
    if |rows| == 0 then 0.0
    else if rows[|rows| - 1].0 == k then rows[|rows| - 1].1
    else Lookup(rows[..|rows| - 1], k)
  }

  /** Looking a service up in the grouped usage gives its summed revenue, 0 when it has none. */
  lemma LookupGroupSums(ts: seq<Transaction>, key: Transaction -> string, k: string)
    ensures Lookup(GroupSums(ts, key), k) == SumFor(ts, key, k)
  {
    var rows := GroupSums(ts, key);
    if k in Column(ts, key) {
      LookupFinds(rows, k);
    } else {
      SumForAbsent(ts, key, k);
    }
  }

  /** In a table with a row named k, Lookup returns the value of the last such row. */
  lemma {:induction false} LookupFinds(rows: seq<(string, real)>, k: string)
    requires exists i :: 0 <= i < |rows| && rows[i].0 == k
    ensures exists i ::
      && 0 <= i < |rows| && rows[i].0 == k && Lookup(rows, k) == rows[i].1
      && (forall j :: i < j < |rows| ==> rows[j].0 != k)
  {
    var n := |rows| - 1;
    if rows[n].0 != k {
      var init := rows[..n];
      var i :| 0 <= i < |rows| && rows[i].0 == k;
      assert init[i].0 == k;
      LookupFinds(init, k);
      var j :|
        && 0 <= j < |init| && init[j].0 == k && Lookup(init, k) == init[j].1
        && (forall m :: j < m < |init| ==> init[m].0 != k);
      assert rows[j] == init[j];
      assert forall m :: j < m < |rows| ==> rows[m].0 != k by {
        forall m | j < m < |rows|
          ensures rows[m].0 != k
        {
          if m < n { assert rows[m] == init[m]; }
        }
      }
    }
  }

  /** `SERVICE_LIMITS`, in its declaration order. */
  const LimitTable: seq<(string, real)> := [
    ("Airtel Money", 350000.0),
    ("FNB", 80000.0),
    ("MTN Money", 160000.0),
    ("Zamtel Money", 70000.0),
    ("Zanaco", 80000.0)
  ]

  /** One entry of `/api/service_limits`. */
  datatype LimitEntry = LimitEntry(service: string, usage: real, limit: real, remaining: real, percentage: real, isLow: bool)

  /** The arithmetic of one entry. */
  function LimitEntryFor(service: string, limit: real, usage: real): (e: LimitEntry)
    ensures e.service == service && e.usage == usage && e.limit == limit
    ensures e.remaining + e.usage == e.limit
    ensures limit > 0.0 ==> e.percentage * limit == usage * 100.0
    ensures limit <= 0.0 ==> e.percentage == 0.0
    ensures e.isLow <==> usage > limit * 0.9
  {
    var remaining := limit - usage;
    var percentage := if limit > 0.0 then (usage / limit) * 100.0 else 0.0;
    LimitEntry(service, usage, limit, remaining, percentage, remaining < limit * 0.1)
  }

  /** `service_limits` for a given limit table: one entry per configured service, in order. */
  function ServiceLimitsFor(table: seq<(string, real)>, ts: seq<Transaction>): (r: seq<LimitEntry>)
    ensures |r| == |table|
    ensures forall i :: 0 <= i < |table| ==> r[i].service == table[i].0 && r[i].limit == table[i].1
    ensures forall i :: 0 <= i < |table| ==> r[i].usage == SumFor(ts, ServiceOf, table[i].0)
    ensures forall i :: 0 <= i < |table| ==> r[i] == LimitEntryFor(table[i].0, table[i].1, SumFor(ts, ServiceOf, table[i].0))
  {
    var usage := GroupSums(ts, ServiceOf);
    var r := seq(|table|, i requires 0 <= i < |table| => LimitEntryFor(table[i].0, table[i].1, Lookup(usage, table[i].0)));
    assert forall i :: 0 <= i < |table| ==> r[i].usage == SumFor(ts, ServiceOf, table[i].0) by {
      forall i | 0 <= i < |table|
        ensures r[i].usage == SumFor(ts, ServiceOf, table[i].0)
      {
        LookupGroupSums(ts, ServiceOf, table[i].0);
      }
    }
    r
  }

  /** `/api/service_limits`. */
  function ServiceLimits(ts: seq<Transaction>): (r: seq<LimitEntry>)
    ensures |r| == 5
    ensures forall i :: 0 <= i < |r| ==> r[i].service == LimitTable[i].0 && r[i].limit == LimitTable[i].1
    ensures forall i :: 0 <= i < |r| ==> r[i] == LimitEntryFor(LimitTable[i].0, LimitTable[i].1, SumFor(ts, ServiceOf, LimitTable[i].0))
  {
    ServiceLimitsFor(LimitTable, ts)
  }

  /** A configured service nobody used shows no usage, its whole limit remaining, and no warning. */
  lemma UnusedService(ts: seq<Transaction>, i: nat)
    requires i < |LimitTable| && LimitTable[i].0 !in Column(ts, ServiceOf)
    ensures ServiceLimits(ts)[i].usage == 0.0
    ensures ServiceLimits(ts)[i].remaining == ServiceLimits(ts)[i].limit
    ensures ServiceLimits(ts)[i].percentage == 0.0
    ensures !ServiceLimits(ts)[i].isLow
  {
    SumForAbsent(ts, ServiceOf, LimitTable[i].0);
    LimitsPositive(i);
  }

  /** Every configured limit is positive, so every percentage is defined by division. */
  lemma LimitsPositive(i: nat)
    requires i < |LimitTable|
    ensures LimitTable[i].1 > 0.0
  {
  }
}

=== FILE: notifications.dfy ===
/**
 * The dashboard's notification area: `showNotification` appends an entry
 * and, for a positive duration, arms a timer whose callback removes the
 * entry only if it is still on screen; the close button removes it at
 * once; `updateNotificationCount` publishes the number of entries shown.
 * Timers are modelled as explicit `Expire` events, one per armed timer.
 */
module Notifications {

  /** One entry: text, its kind (`info`, `success`, `warning`, `error`, ...) and duration in ms. */
  datatype Note = Note(message: string, kind: string, duration: int)

  /** Defaults of `showNotification(message, type = 'info', duration = 5000)`. */
  const DefaultKind: string := "info"
  const DefaultDuration: int := 5000

  /**
   * `shown`: entries on screen by id; `timers`: ids whose expiry timer has
   * not fired yet; `next`: the id the next entry gets; `count`: the
   * published notification count.
   */
  datatype Board = Board(shown: map<nat, Note>, timers: set<nat>, next: nat, count: nat)

  /** Ids are handed out in order and the published count is the number of entries shown. */
  predicate Valid(b: Board) {
    && (forall id :: id in b.shown ==> id < b.next)
    && (forall id :: id in b.timers ==> id < b.next)
    && b.count == |b.shown|
  }

  function Empty(): (b: Board)
    ensures Valid(b) && b.count == 0 && b.timers == {}
  {
    Board(map[], {}, 0, 0)
  }

  /** `showNotification`: append the entry and arm a timer only when the duration is positive. */
  function Post(b: Board, n: Note): (r: Board)
    requires Valid(b)
    ensures Valid(r)
    ensures b.next !in b.shown && b.next in r.shown
    ensures forall id :: id in r.shown <==> id in b.shown || id == b.next
    ensures r.shown[b.next] == n
    ensures forall id :: id in b.shown ==> r.shown[id] == b.shown[id]
    ensures r.count == b.count + 1 && r.next == b.next + 1
    ensures n.duration > 0 ==> r.timers == b.timers + {b.next}
    ensures n.duration <= 0 ==> r.timers == b.timers
  {
    var shown := b.shown[b.next := n];
    assert shown.Keys == b.shown.Keys + {b.next};
    Board(shown, if n.duration > 0 then b.timers + {b.next} else b.timers, b.next + 1, |shown|)
  }

  /** Posting a sequence of entries in order: the last entry is posted after all the others. */
  function PostAll(b: Board, ns: seq<Note>): (r: Board)
    requires Valid(b)
    ensures Valid(r)
    ensures r.count == b.count + |ns|
    ensures r.next == b.next + |ns|
    ensures forall id :: id in b.shown ==> id in r.shown && r.shown[id] == b.shown[id]
    decreases |ns|
  {
    if |ns| == 0 then b else Post(PostAll(b, ns[..|ns| - 1]), ns[|ns| - 1])
  }

  /** The i-th posted entry is on the board under id `b.next + i`. */
  lemma {:induction false} PostAllEntries(b: Board, ns: seq<Note>, i: nat)
    requires Valid(b) && i < |ns|
    ensures b.next + i in PostAll(b, ns).shown
    ensures PostAll(b, ns).shown[b.next + i] == ns[i]
    decreases |ns|
  {
    var init := ns[..|ns| - 1];
    var before := PostAll(b, init);
    assert PostAll(b, ns) == Post(before, ns[|ns| - 1]);
    if i < |ns| - 1 {
      PostAllEntries(b, init, i);
      assert init[i] == ns[i];
    }
  }

  /**
   * The timer armed for `id` fires: the entry is removed and the count
   * republished only if the entry is still shown.  An id without an armed
   * timer has nothing to fire.
   */
  function Expire(b: Board, id: nat): (r: Board)
    requires Valid(b)
    ensures Valid(r)
    ensures id !in r.timers && r.timers == b.timers - {id}
    ensures id !in b.timers ==> r == b
    ensures forall k :: k in r.shown <==> k in b.shown && !(k == id && id in b.timers)
    ensures forall k :: k in r.shown ==> r.shown[k] == b.shown[k]
    ensures r.count == if id in b.timers && id in b.shown then b.count - 1 else b.count
    ensures r.next == b.next
  {
    if id !in b.timers then b
    else if id in b.shown then
      var shown := b.shown - {id};
      assert shown.Keys == b.shown.Keys - {id};
      Board(shown, b.timers - {id}, b.next, |shown|)
    else Board(b.shown, b.timers - {id}, b.next, b.count)
  }

  /** The close button: remove the entry and republish the count; its timer stays armed. */
  function Dismiss(b: Board, id: nat): (r: Board)
    requires Valid(b)
    ensures Valid(r)
    ensures r.shown.Keys == b.shown.Keys - {id}
    ensures forall k :: k in r.shown ==> r.shown[k] == b.shown[k]
    ensures r.timers == b.timers && r.next == b.next
    ensures r.count == if id in b.shown then b.count - 1 else b.count
  {
    var shown := b.shown - {id};
    assert shown.Keys == b.shown.Keys - {id};
    Board(shown, b.timers, b.next, |shown|)
  }

  /** A timer fires at most once: a second expiry of the same id changes nothing. */
  lemma ExpireIdempotent(b: Board, id: nat)
    requires Valid(b)
    ensures Expire(Expire(b, id), id) == Expire(b, id)
  {
  }

  /** Closing an entry twice is the same as closing it once. */
  lemma DismissIdempotent(b: Board, id: nat)
    requires Valid(b)
    ensures Dismiss(Dismiss(b, id), id) == Dismiss(b, id)
  {
    var once := Dismiss(b, id);
    assert once.shown - {id} == once.shown;
  }

  /** Closing an entry and then letting its timer fire lowers the count once, not twice. */
  lemma DismissThenExpire(b: Board, id: nat)
    requires Valid(b)
    ensures Expire(Dismiss(b, id), id).count == if id in b.shown then b.count - 1 else b.count
    ensures id !in Expire(Dismiss(b, id), id).shown
  {
  }

  /** An entry posted with duration 0 (or less) survives every timer: only the close button removes it. */
  lemma UntimedEntryPersists(b: Board, n: Note, other: nat)
    requires Valid(b) && n.duration <= 0
    ensures b.next in Expire(Post(b, n), other).shown
    ensures Expire(Post(b, n), b.next) == Post(b, n)
  {
  }

  /** An entry posted with a positive duration is gone once its timer fires. */
  lemma TimedEntryExpires(b: Board, n: Note)
    requires Valid(b) && n.duration > 0
    ensures b.next !in Expire(Post(b, n), b.next).shown
    ensures Expire(Post(b, n), b.next).count == b.count
  {
  }
}

=== FILE: ranking.dfy ===
/**
 * `ORDER BY <score> DESC LIMIT n` over the rows of a query.  SQL leaves
 * the order among equal scores unspecified; the model sorts by insertion
 * and every contract below holds for any order the database may choose
 * among ties.
 */
module Ranking {
  import opened Common

  /** Non-increasing scores. */
  predicate SortedDesc<T>(s: seq<T>, score: T -> real) {
    forall i, j :: 0 <= i < j < |s| ==> score(s[i]) >= score(s[j])
  }

  /** Put x before the first element that scores strictly less. */
  function Insert<T>(x: T, s: seq<T>, score: T -> real): (r: seq<T>)
    requires SortedDesc(s, score)
    ensures |r| == |s| + 1
    ensures SortedDesc(r, score)
    ensures multiset(r) == multiset(s) + multiset{x}
    ensures r[0] == x || (|s| > 0 && r[0] == s[0])
  {
    if |s| == 0 then [x]
    else if score(s[0]) < score(x) then [x] + s
    else
      var rest := Insert(x, s[1..], score);
      assert s == [s[0]] + s[1..];
      [s[0]] + rest
  }

  /** Insertion sort by descending score: a sorted permutation of the input. */
  function Sort<T>(s: seq<T>, score: T -> real): (r: seq<T>)
    ensures |r| == |s|
    ensures SortedDesc(r, score)
    ensures multiset(r) == multiset(s)
  {
    if |s| == 0 then []
    else
      assert s == [s[0]] + s[1..];
      Insert(s[0], Sort(s[1..], score), score)
  }

  /** The n best-scoring rows, best first. */
  function TopN<T>(s: seq<T>, n: nat, score: T -> real): (r: seq<T>)
    ensures |r| == Min(n, |s|)
    ensures SortedDesc(r, score)
    ensures multiset(r) <= multiset(s)
  {
    var sorted := Sort(s, score);
    var k := Min(n, |s|);
    assert sorted == sorted[..k] + sorted[k..];
    sorted[..k]
  }

  /** What a prefix leaves behind is the rest of the sequence. */
  lemma PrefixRest<T>(s: seq<T>, k: nat)
    requires k <= |s|
    ensures multiset(s) - multiset(s[..k]) == multiset(s[k..])
  {
    assert s == s[..k] + s[k..];
  }

  /** In a sorted sequence, an element before position k scores at least as much as one from position k on. */
  lemma SortedSplit<T>(s: seq<T>, score: T -> real, k: nat, x: T, y: T)
    requires SortedDesc(s, score) && k <= |s|
    requires x in s[..k] && y in s[k..]
    ensures score(x) >= score(y)
  {
    var a :| 0 <= a < k && s[..k][a] == x;
    var b :| 0 <= b < |s| - k && s[k..][b] == y;
    assert s[a] == x && s[k + b] == y;
  }

  /** Nothing left out of the top n scores more than anything kept. */
  lemma TopNKeepsBest<T>(s: seq<T>, n: nat, score: T -> real, x: T, y: T)
    requires x in TopN(s, n, score)
    requires y in multiset(s) - multiset(TopN(s, n, score))
    ensures score(x) >= score(y)
  {
    var sorted := Sort(s, score);
    var k := Min(n, |s|);
    PrefixRest(sorted, k);
    assert y in multiset(sorted[k..]);
    SortedSplit(sorted, score, k, x, y);
  }

  /** When n covers every row, nothing is dropped: the result is a permutation of the input. */
  lemma TopNAll<T>(s: seq<T>, n: nat, score: T -> real)
    requires n >= |s|
    ensures multiset(TopN(s, n, score)) == multiset(s)
  {
    var sorted := Sort(s, score);
    assert sorted[..|s|] == sorted;
  }

  /** No two rows of s share a name. */
  predicate UniqueNames<T>(s: seq<T>, name: T -> string) {
    forall i, j :: 0 <= i < j < |s| ==> name(s[i]) != name(s[j])
  }

  /** In a table with unique names, no row occurs twice. */
  lemma {:induction false} UniqueNamesOnce<T>(s: seq<T>, name: T -> string, x: T)
    requires UniqueNames(s, name)
    ensures multiset(s)[x] <= 1
  {
    if |s| > 0 {
      var n := |s| - 1;
      var init := s[..n];
      assert s == init + [s[n]];
      assert UniqueNames(init, name) by {
        forall i, j | 0 <= i < j < |init|
          ensures name(init[i]) != name(init[j])
        {
          assert init[i] == s[i] && init[j] == s[j];
        }
      }
      UniqueNamesOnce(init, name, x);
    }
  }

  /** A row held at two positions occurs at least twice. */
  lemma TwiceCounted<T>(r: seq<T>, i: nat, j: nat)
    requires i < j < |r| && r[i] == r[j]
    ensures multiset(r)[r[i]] >= 2
  {
    assert r == r[..j] + [r[j]] + r[j + 1..];
    assert r[i] in r[..j];
  }

  /** Rows taken from a table with unique names have unique names too. */
  lemma SubUniqueNames<T>(r: seq<T>, s: seq<T>, name: T -> string)
    requires UniqueNames(s, name) && multiset(r) <= multiset(s)
    ensures UniqueNames(r, name)
  {
    forall i, j | 0 <= i < j < |r|
      ensures name(r[i]) != name(r[j])
    {
      if name(r[i]) == name(r[j]) {
        assert r[i] in multiset(s) && r[j] in multiset(s);
        var a :| 0 <= a < |s| && s[a] == r[i];
        var b :| 0 <= b < |s| && s[b] == r[j];
        assert a == b;
        TwiceCounted(r, i, j);
        UniqueNamesOnce(s, name, r[i]);
        assert false;
      }
    }
  }

  /**
   * The top n of a table with unique names, in plain terms: its rows are
   * rows of the table, their names stay unique, and a row left out never
   * scores more than a row kept.
   */
  lemma TopNOfTable<T>(s: seq<T>, n: nat, score: T -> real, name: T -> string)
    requires UniqueNames(s, name)
    ensures forall x :: x in TopN(s, n, score) ==> x in s
    ensures UniqueNames(TopN(s, n, score), name)
    ensures forall x, y :: x in TopN(s, n, score) && y in s && y !in TopN(s, n, score) ==> score(x) >= score(y)
  {
    var r := TopN(s, n, score);
    forall x | x in r
      ensures x in s
    {
      assert x in multiset(r);
    }
    SubUniqueNames(r, s, name);
    forall x, y | x in r && y in s && y !in r
      ensures score(x) >= score(y)
    {
      assert y in multiset(s) - multiset(r);
      TopNKeepsBest(s, n, score, x, y);
    }
  }
}

=== FILE: server_auth.dfy ===
/**
 * The backend's access decisions: the `login_required` and
 * `role_required` gates, the `/login` outcome and `/api/user`.  The
 * session is the logged-in account or nothing; the user table is a
 * sequence of accounts.
 */
module ServerAuth {
  import opened Common

  /** One row of the `user` table. */
  datatype Account = Account(id: nat, username: string, password: string, role: string)

  /** The user table declares `username` unique. */
  predicate UniqueUsernames(users: seq<Account>) {
    forall i, j :: 0 <= i < j < |users| ==> users[i].username != users[j].username
  }

  /** What a gate does with a request. */
  datatype Gate =
    | RedirectToLogin   // `login_required` without a session: 302 to the login view
    | Forbidden         // 403 `Insufficient permissions`; the handler does not run
    | Admitted          // the handler runs

  /** `login_required`. */
  function LoginRequired(session: Option<Account>): (g: Gate)
    ensures g.Admitted? <==> session.Some?
    ensures !g.Forbidden?
  {
    if session.None? then RedirectToLogin else Admitted
  }

  /**
   * `role_required(role)`: the login check runs first; a logged-in user
   * passes when their role is the required one or `admin`.
   */
  function RoleRequired(session: Option<Account>, role: string): (g: Gate)
    ensures session.None? <==> g.RedirectToLogin?
    ensures g.Admitted? <==> session.Some? && (session.value.role == role || session.value.role == "admin")
  {
    match session
    case None => RedirectToLogin
    case Some(a) => if a.role != role && a.role != "admin" then Forbidden else Admitted
  }

  /** An admin passes every role gate; a gate for `admin` admits admins only. */
  lemma AdminPassesEverything(a: Account, role: string)
    ensures a.role == "admin" ==> RoleRequired(Some(a), role).Admitted?
    ensures RoleRequired(Some(a), "admin").Admitted? <==> a.role == "admin"
  {
  }

  /** `User.query.filter_by(username=...).first()`: the first account with that username, in table order. */
  function FindUser(users: seq<Account>, username: string): (r: Option<Account>)
    ensures r.Some? ==> r.value in users && r.value.username == username
    ensures r.Some? ==> exists i :: 0 <= i < |users| && users[i] == r.value && forall j :: 0 <= j < i ==> users[j].username != username
    ensures r.None? <==> forall i :: 0 <= i < |users| ==> users[i].username != username
  {
    if |users| == 0 then None
    else if users[0].username == username then Some(users[0])
    else FindUser(users[1..], username)
  }

  /** Where a login attempt ends. */
  datatype LoginOutcome = MissingFields | Success(account: Account) | BadCredentials

  /** `not username or not password`: a field that is absent or empty. */
  predicate Blank(field: Option<string>) {
    field.None? || field.value == ""
  }

  /** The decision of `POST /login`. */
  function LoginDecision(users: seq<Account>, username: Option<string>, password: Option<string>): (o: LoginOutcome)
    ensures o.MissingFields? <==> Blank(username) || Blank(password)
    ensures o.Success? ==> o.account in users && Some(o.account.username) == username && Some(o.account.password) == password
  {
    if Blank(username) || Blank(password) then MissingFields
    else match FindUser(users, username.value)
      case Some(a) => if a.password == password.value then Success(a) else BadCredentials
      case None => BadCredentials
  }

  /** The status `POST /login` answers: 400 for a missing field, 401 for bad credentials, 200 on success. */
  function LoginStatus(o: LoginOutcome): (code: int)
    ensures code == 200 <==> o.Success?
    ensures code == 400 <==> o.MissingFields?
    ensures code == 401 <==> o.BadCredentials?
  {
    match o
    case MissingFields => 400
    case Success(_) => 200
    case BadCredentials => 401
  }

  /** A login request: the new session and the status; a failed attempt leaves the session alone. */
  function Login(session: Option<Account>, users: seq<Account>, username: Option<string>, password: Option<string>): (r: (Option<Account>, int))
    ensures r.1 == 200 ==> r.0.Some? && r.0.value in users && Some(r.0.value.username) == username
    ensures r.1 != 200 ==> r.0 == session
    ensures r.1 == 400 <==> Blank(username) || Blank(password)
    ensures r.1 == 401 <==>
      !Blank(username) && !Blank(password) &&
      (FindUser(users, username.value).None? || FindUser(users, username.value).value.password != password.value)
    ensures r.1 in {200, 400, 401}
  {
    var o := LoginDecision(users, username, password);
    (if o.Success? then Some(o.account) else session, LoginStatus(o))
  }

  /** With unique usernames, login succeeds exactly when some account has that username and password. */
  lemma LoginSucceedsIff(users: seq<Account>, username: string, password: string)
    requires UniqueUsernames(users) && username != "" && password != ""
    ensures LoginDecision(users, Some(username), Some(password)).Success? <==>
      exists i :: 0 <= i < |users| && users[i].username == username && users[i].password == password
  {
    var found := FindUser(users, username);
    if found.Some? {
      var k :| 0 <= k < |users| && users[k] == found.value;
      forall i | 0 <= i < |users| && users[i].username == username
        ensures i == k
      {
      }
    }
  }

  /** The JSON body of a successful login and of `/api/user`: `{username, role}`. */
  function View(a: Account): (u: User)
    ensures u.username == a.username && u.role == a.role
  {
    User(a.username, a.role)
  }

  /** `/api/user`: who is logged in, or 401. */
  function CurrentUser(session: Option<Account>): (r: (int, Option<User>))
    ensures r.0 == 200 <==> session.Some?
    ensures r.0 != 200 ==> r.0 == 401 && r.1.None?
    ensures session.Some? ==> r.1 == Some(View(session.value))
  {
    match session
    case Some(a) => (200, Some(View(a)))
    case None => (401, None)
  }

  /** After a successful login, `/api/user` reports the account that logged in, with the same username and role. */
  lemma LoginThenCurrentUser(session: Option<Account>, users: seq<Account>, username: string, password: string)
    requires LoginDecision(users, Some(username), Some(password)).Success?
    ensures CurrentUser(Login(session, users, Some(username), Some(password)).0) ==
      (200, Some(View(LoginDecision(users, Some(username), Some(password)).account)))
    ensures CurrentUser(Login(session, users, Some(username), Some(password)).0).1.value.username == username
  {
  }

  /** A failed login changes nobody's session: who was logged in stays logged in. */
  lemma FailedLoginKeepsSession(session: Option<Account>, users: seq<Account>, username: Option<string>, password: Option<string>)
    requires !LoginDecision(users, username, password).Success?
    ensures CurrentUser(Login(session, users, username, password).0) == CurrentUser(session)
  {
  }
}
